=== FILE: README.md ===
# Constellix DNS client for certbot, in Dafny

This project models `_ConstellixClient`, the client the Constellix DNS
authenticator for certbot uses to answer a DNS-01 challenge. To add a
challenge TXT record, the client does three things. It finds the managed
zone by searching the provider for the record name and then for each
base-domain guess. It looks in that zone for a TXT record whose value parts,
with their edge quotes removed and joined, equal the challenge content. It
inserts a record only when the lookup finds none. Deleting a record works the same
way, except that it removes the record found, by its id.

The model is in seven modules, one file each:

- `Wrappers` holds `Option`, `Result` and `Outcome`.
- `Text` covers the string handling. That is the base-domain guesses,
  Python's `strip('"')`, the joined full content of a record, the
  relative-name expression `record_name.replace(zone_name, "")[:-1]`, and
  decimal ids.
- `Api` holds the requests: the verb, the action path under the endpoint
  (`_get_url`) and the payload (`_prepare_data`).
- `Provider` models the account behind the REST API. A `Store` value holds
  the zones, the TXT records of each zone, the next record id, and a fixed
  map from request to fault. A fault is either a body that is not JSON or a
  non-200 status. The `DnsProvider` class holds that state, answers requests
  one at a time and logs each one.
- `Reconcile` gives the pure specification. Each step of the client is a
  function of the store that returns the value the client computes, the
  requests it sends in order, and the store left after it.
- `Client` holds the class `ConstellixClient`. Its methods are loops and
  provider calls, just as in the source. Each is proved to return, send and
  change exactly what its `Reconcile` function says, except `JoinValues`,
  which is proved to compute `Text.FullContent`.
- `Properties` holds what the operations promise: write-at-most-once,
  soundness of the lookup, "Domain not known", idempotent add, delete
  undoing add, and delete keeping records with other content.
- `Findings` models the two defects found in add and delete as written (see
  "## Findings").

The docstrings and the code disagree in three places, and the model
follows the code in each:

- The docstring of `get_existing_txt` says errors are suppressed and `None`
  is returned. But an unreadable answer still raises out of it, and a
  non-200 answer to a record fetch raises a `KeyError` on `data['value']`,
  not a `PluginError`. A non-200 answer to the record search does return
  `None`, without fetching anything.
- The docstrings of `add_txt_record` and `del_txt_record` (lines 132 and
  165) promise a `PluginError` when talking to the API fails. But the status
  of the POST and of the DELETE is thrown away (lines 195 and 207), so a
  write refused with a non-200 status ends add or delete normally with
  nothing written (`Properties.AddPassesOnRefusedWrite`,
  `Properties.DelPassesOnRefusedWrite`).
- The docstring of `_find_managed_zone_id` (lines 214-216) promises a zone
  id and a `PluginError` when no zone is found. The code returns an
  `(id, name)` pair, or a bare `None` (lines 227 and 230); see "## Findings".

## Model

| member | source | states |
|---|---|---|
| Client.ConstellixClient.constructor | certbot_dns_constellix/dns_constellix.py:81-87 | the client keeps the endpoint, the two keys and the provider account it talks to |
| Client.ConstellixClient.FindManagedZoneId | certbot_dns_constellix/dns_constellix.py:209-230 | the loop tries the record name and then each domain guess, in order, and returns the first zone of the first answer that is 200 and non-empty; it sends exactly the searches `Reconcile.ZoneWalk` lists, and the provider's records are unchanged |
| Client.ConstellixClient.GetExistingTxt | certbot_dns_constellix/dns_constellix.py:232-256 | an unreadable search raises; a search not answered 200 gives none; otherwise the search hits are walked; the result and the requests are those of `Reconcile.ExistingTxt`, and the store is unchanged |
| Client.ConstellixClient.MatchRecords | certbot_dns_constellix/dns_constellix.py:249-256 | the loop over the search hits fetches each record in order and returns the first whose full content is the content; it stops at the first failed fetch with its error, or finds none after fetching them all (`Reconcile.MatchWalk`) |
| Client.ConstellixClient.JoinValues | certbot_dns_constellix/dns_constellix.py:251-253 | the inner loop's accumulated value equals `Text.FullContent` of the record's value parts |
| Client.ConstellixClient.InsertTxtRecord | certbot_dns_constellix/dns_constellix.py:192-195 | one POST of the prepared payload to the zone's record collection; the new store is `Provider.AfterInsert`; only an unreadable answer is an error |
| Client.ConstellixClient.DeleteTxtRecord | certbot_dns_constellix/dns_constellix.py:205-207 | one DELETE of the record id in the zone; the new store is `Provider.AfterDelete`; only an unreadable answer is an error |
| Client.ConstellixClient.AddTxtRecord | certbot_dns_constellix/dns_constellix.py:124-155 | the outcome, the requests and the new store are those of `Reconcile.AddTxt`: no zone gives "Domain not known"; a lookup error is raised; a match writes nothing; otherwise one insert |
| Client.ConstellixClient.DelTxtRecord | certbot_dns_constellix/dns_constellix.py:157-179 | the outcome, the requests and the new store are those of `Reconcile.DelTxt`: no zone gives "Domain not known"; a lookup error is raised; no match writes nothing; otherwise the matched record is deleted by id |
| Provider.DnsProvider.SearchZones | certbot_dns_constellix/dns_constellix.py:105-115 | a zone search is answered with the zones of that exact name, or with its fault; the store is unchanged and the request is logged |
| Provider.DnsProvider.SearchRecords | certbot_dns_constellix/dns_constellix.py:105-115 | a record search is answered with the ids of the zone's records of that name, or 404 for an unknown zone, or its fault; the request is logged |
| Provider.DnsProvider.GetRecord | certbot_dns_constellix/dns_constellix.py:105-115 | a record fetch is answered with the stored record of that id, or 404, or its fault; the request is logged |
| Provider.DnsProvider.Insert | certbot_dns_constellix/dns_constellix.py:105-115 | a create request appends a record with the next id and the quoted value parts when it is answered 200, and changes nothing otherwise; the request is logged |
| Provider.DnsProvider.Delete | certbot_dns_constellix/dns_constellix.py:105-115 | a delete request removes the records with that id when answered 200, and changes nothing otherwise; the request is logged |
| Reconcile.ZoneWalkFirstHit | certbot_dns_constellix/dns_constellix.py:219-227 | when candidate i is the first that hits, the walk returns the first zone of its answer after searching exactly candidates 0..i |
| Reconcile.ZoneWalkMisses | certbot_dns_constellix/dns_constellix.py:221-230 | when no candidate hits, the walk finds nothing after searching every candidate in order |
| Reconcile.ZoneWalkNotFound | certbot_dns_constellix/dns_constellix.py:221-230 | the walk finds nothing if and only if every candidate was answered with a body that is not JSON, with a status other than 200, or with an empty list |
| Reconcile.ZoneWalkResolvesKnownZone | certbot_dns_constellix/dns_constellix.py:225-227 | a resolved zone is one of the account's zones, and its name is one of the candidates |
| Reconcile.MatchWalkFound | certbot_dns_constellix/dns_constellix.py:249-255 | when record k is the first that matches, it is returned after fetching exactly records 0..k |
| Reconcile.MatchWalkFails | certbot_dns_constellix/dns_constellix.py:250-252 | a failed fetch before any match ends the lookup with that fetch's error |
| Reconcile.MatchWalkNone | certbot_dns_constellix/dns_constellix.py:249-256 | when no record matches, every record has been fetched and none is returned |
| Properties.ZoneWalkReads | certbot_dns_constellix/dns_constellix.py:221-227 | zone resolution sends only GET requests |
| Properties.MatchWalkReads | certbot_dns_constellix/dns_constellix.py:249-250 | the walk over the search hits sends only GET requests |
| Properties.ExistingTxtReads | certbot_dns_constellix/dns_constellix.py:246-256 | the lookup of an existing record sends only GET requests |
| Properties.MatchWalkErrors | certbot_dns_constellix/dns_constellix.py:250-252 | a walk error is the unreadable-answer error or the missing `value` key |
| Properties.MatchWalkSound | certbot_dns_constellix/dns_constellix.py:249-255 | a returned record is stored in the zone, has a searched id, and its full content is exactly the content |
| Properties.ExistingTxtSound | certbot_dns_constellix/dns_constellix.py:246-256 | a returned record is stored in the zone, has an id the search listed for the name, and has exactly the content; on a valid store it is also named with the searched name; the only errors are the unreadable answer and the missing `value` key |
| Properties.ExistingTxtRefusedSearch | certbot_dns_constellix/dns_constellix.py:246-248 | a search not answered 200 fetches no record, and gives none unless its body is unreadable |
| Properties.UnknownDomain | certbot_dns_constellix/dns_constellix.py:134-136 | add, and likewise delete (:167-169), fail with "Domain not known" if and only if no candidate hits; they then have sent only the zone searches and changed nothing |
| Properties.AddTxtWrites | certbot_dns_constellix/dns_constellix.py:143-155 | add writes at most once, as its last request. It writes exactly when the zone resolves and the lookup finds none, which includes a record search not answered 200; the write is a POST of `{name, ttl, roundRobin: [content]}` to the zone's collection. Otherwise it only reads and the store is unchanged, and when a record has the content it reports no error |
| Properties.DelTxtWrites | certbot_dns_constellix/dns_constellix.py:176-179 | delete writes at most once, as its last request: a DELETE of the matched record's id in the resolved zone. With no match it only reads, changes nothing and reports no error |
| Properties.AddPassesOnRefusedWrite | certbot_dns_constellix/dns_constellix.py:192-195 | when the lookup finds none and the POST is refused with a non-200 status, add reports success and the store is unchanged: the status of the write is not looked at |
| Properties.DelPassesOnRefusedWrite | certbot_dns_constellix/dns_constellix.py:205-207 | when a record matches and its DELETE is refused with a non-200 status, delete reports success and the record stays stored |
| Properties.InsertAddsRecord | certbot_dns_constellix/dns_constellix.py:181-195 | on a valid store, a successful insert appends exactly one record to the zone. The record has the relative name and the ttl, an id no record stored in any zone has, and, for content without edge quotes, the content as its full content. Other zones are unchanged |
| Properties.InsertKeepsValid | certbot_dns_constellix/dns_constellix.py:192-195 | an insert keeps the store valid (zone record lists exist, ids below the next id, ids unique within a zone) |
| Properties.DeleteRemovesRecord | certbot_dns_constellix/dns_constellix.py:205-207 | a successful delete removes the records with that id from the zone and keeps every other record; other zones, the zone list and the next id are unchanged; validity is kept |
| Properties.OperationsKeepValid | certbot_dns_constellix/dns_constellix.py:124-179 | add and delete keep a valid store valid, whatever the provider answers, so the properties that need a valid store apply again to the next run |
| Properties.DeleteKeepsOtherContent | certbot_dns_constellix/dns_constellix.py:205-207 | on a valid store, deleting by id a stored record with the content keeps every record with other content |
| Properties.DelTxtKeepsOthers | certbot_dns_constellix/dns_constellix.py:157-179 | on a valid store, delete never removes a record whose full content differs from the content, at the same name or any other, and adds nothing |
| Properties.LookupFindsInserted | certbot_dns_constellix/dns_constellix.py:246-255 | on a valid store without faults and for content with no double quote at either end, once a lookup has found nothing and the record has been inserted, the same lookup finds the inserted record |
| Properties.AddIdempotent | certbot_dns_constellix/dns_constellix.py:143-155 | on a valid store without faults and for content with no double quote at either end, a second identical add sends only reads, has the same outcome and leaves the same store as the first; the outcome is success unless the domain is unknown |
| Properties.AddRepeatsOnRefusedSearch | certbot_dns_constellix/dns_constellix.py:246-248 | on a valid store where only the record search is refused with a non-200 status, two identical adds both succeed and each inserts a record, leaving two records with the same name and value parts and different ids |
| Properties.DeleteUndoesInsert | certbot_dns_constellix/dns_constellix.py:205-207 | deleting the record an insert just created gives back the records as they were |
| Properties.AddThenDelRestores | certbot_dns_constellix/dns_constellix.py:124-179 | on a valid store without faults, for content with no double quote at either end, and with no record holding the content, an add followed by a delete of the same content leaves the zones and records as they were, with the same outcome for both |
| Properties.ZoneAtDomain | certbot_dns_constellix/dns_constellix.py:219-227 | without faults, with no zone named after the record itself and a zone named after the domain, the walk finds that zone on the second search |
| Properties.ChallengeNameExample | certbot_dns_constellix/dns_constellix.py:139 | `_acme-challenge.example.com` in the zone `example.com` gets the relative name `_acme-challenge` |
| Text.GuessesWalkUpLabels | certbot_dns_constellix/dns_constellix.py:219 | the guesses start with the domain; each next guess drops the first label of the one before; the last has no dot |
| Text.GuessesAreSuffixes | certbot_dns_constellix/dns_constellix.py:219 | every guess is a suffix of the domain |
| Text.StripQuotes | certbot_dns_constellix/dns_constellix.py:253 | `strip('"')` gives a part no longer than the input, with no quote at either end |
| Text.StripQuotesOfPadded | certbot_dns_constellix/dns_constellix.py:253 | any run of quotes on either side of a value without edge quotes is removed, and interior quotes are kept |
| Text.StripQuotesOfQuote | certbot_dns_constellix/dns_constellix.py:253 | stripping a quoted value without edge quotes gives the value back |
| Text.FullContentAppend | certbot_dns_constellix/dns_constellix.py:251-253 | the full content of two runs of parts is the concatenation of their full contents |
| Text.FullContentOfQuoted | certbot_dns_constellix/dns_constellix.py:251-254 | one quoted part holding the content has the content as its full content |
| Text.FullContentOfTwoParts | certbot_dns_constellix/dns_constellix.py:251-254 | two quoted parts have their joined values as full content, so `"ab"` and `"cd"` match `abcd` |
| Text.RemoveAllKeepsPrefix | certbot_dns_constellix/dns_constellix.py:139 | `replace(zone, "")` keeps any prefix in which the zone name does not start |
| Text.RemoveAllOfItself | certbot_dns_constellix/dns_constellix.py:139 | replacing a name in itself leaves the empty string |
| Text.RelativeNameOfChild | certbot_dns_constellix/dns_constellix.py:139 | for `p + "." + zone`, with the zone name occurring only as that suffix, the relative name is `p` |
| Text.RelativeNameOfApex | certbot_dns_constellix/dns_constellix.py:172 | a record name equal to the zone name has the empty relative name |
| Text.NatToString | certbot_dns_constellix/dns_constellix.py:195 | a formatted id is a non-empty string of decimal digits |
| Text.ParseNatToString | certbot_dns_constellix/dns_constellix.py:207 | reading a formatted id back gives the id |
| Api.ActionPathInjective | certbot_dns_constellix/dns_constellix.py:246-250 | different actions (zone search, record search, record collection, record item) never share a path |
| Api.UrlInjective | certbot_dns_constellix/dns_constellix.py:117-118 | under one endpoint, different actions are sent to different URLs |
| Findings.AsWrittenDiffersOnlyInOutcome | certbot_dns_constellix/dns_constellix.py:134-145 | add and delete as written send the same requests and leave the same store as the corrected ones. Their outcomes differ only by the unpacking error in place of "Domain not known", and by the missing `data` key in place of success |
| Findings.UnknownDomainAsWritten | certbot_dns_constellix/dns_constellix.py:230 | as written, an unknown domain makes add and delete fail with the unpacking error |
| Findings.RepeatedAddAsWrittenFails | certbot_dns_constellix/dns_constellix.py:145 | as written, on a valid store without faults, for content with no double quote at either end and with a known domain, a second identical add always fails on the missing `data` key |

## Left out

- Request signing is not part of this model: the API key header, the HMAC-SHA1 of the millisecond clock, its base64 encoding, and the header update before every request (lines 86-103). These are cryptography and a clock, and they do not change which requests are sent.
- The HTTP session and JSON decoding (lines 105-115) are replaced by `DnsProvider`. A body that is not JSON becomes `Unreadable`, which is the "API response unknown" error. A JSON error document becomes `Refused` with its non-200 status.
- Provider.DnsProvider.SearchZones: a fault is fixed per request. The same request always fails the same way, so retries and faults that vary over time are not modelled. A 200 answer is always well formed, so a missing `id` or `name` key in a zone (line 227) is not modelled.
- Client.ConstellixClient.FindManagedZoneId: exceptions raised by the HTTP transport itself (a connection error or a timeout in the request at line 108) are not modelled. The walk catches only `PluginError` (line 228), so such an exception would escape the walk and abort add and delete. Every fault in the model is one the walk absorbs.
- Provider.DnsProvider.SearchZones: the zone search answers only the zones whose name equals the query exactly. The client never checks the name it gets back (line 227), so `Reconcile.ZoneWalkResolvesKnownZone` and the relative name rely on the provider honouring `exact=`.
- Properties.AddIdempotent: holds only when no request is faulted. A record search answered with a non-200 status makes the lookup find none (lines 246-248), so a repeated add inserts a duplicate; `Properties.AddRepeatsOnRefusedSearch` shows this.
- Provider.DnsProvider.Insert: an answer to the POST that is not JSON is modelled as the write not taking effect. The client raises only after the request was sent (lines 108-113), so in fact the provider may or may not have stored the record; the model does not cover a write applied behind an unreadable answer.
- Provider.DnsProvider.Delete: likewise, an unreadable answer to the DELETE is modelled as the record not being removed, although the provider may have removed it.
- Client.ConstellixClient.MatchRecords: a 200 record answer is always a well-formed record, so missing `id` or `value` keys in a 200 answer are not modelled.
- `_get_server_id` (lines 120-122) is not modelled. It is never called, and it calls `_api_request` with the wrong number of arguments.
- `_update_txt_record` and the update branch of `add_txt_record` (lines 148-152, 197-203) are not modelled. The lookup only returns records whose content is the content, so this branch cannot be reached. It would also fail on the undefined `record_id`.
- The `Authenticator` plugin (lines 19-73) is certbot wiring and is not part of this model: interface registration, arguments, the credentials file, and the perform and cleanup wrappers. The same goes for logging.
- `base_domain_name_guesses` is certbot's own helper; its source is not in this repository. It is modelled by `Text.BaseDomainNameGuesses`, which returns `'.'.join(domain.split('.')[i:])` for every `i`.
- The stored form of an inserted value (the content in double quotes) is the provider's behaviour, not the client's. `Provider.NewRecord` models it.
- Concurrency is not modelled. Another client changing the account between two requests is outside the model, because every request is answered from one store in order.
- The ttl is passed through unchecked, as the source does.

## Findings

| source | as written | input that shows it | evidently intended | confidence | as-written member | corrected member |
|---|---|---|---|---|---|---|
| certbot_dns_constellix/dns_constellix.py:230 | when no candidate zone hits, `_find_managed_zone_id` returns a bare `None`, and `zone_id, zone_name = ...` at lines 134 and 167 raises a TypeError before the `is None` test | any domain the account does not hold, e.g. an account with no zones | fail with "Domain not known" (lines 135-136, 168-169) | not executed | Findings.UnknownDomainAsWritten | Properties.UnknownDomain |
| certbot_dns_constellix/dns_constellix.py:145 | when a record with the content exists, `record["data"]` is read, but the fetched record keeps its parts under `value` (line 252), so a KeyError is raised | calling `add_txt_record` twice with the same arguments on an account that knows the domain | return without writing, since the lookup only returns records with the content | not executed | Findings.RepeatedAddAsWrittenFails | Properties.AddIdempotent |

=== FILE: api.dfy ===
/**
 * The requests the client sends to the Constellix DNS REST API: the HTTP
 * verb, the action path under the endpoint, and the JSON payload.
 */
module Api {
  import opened Text

  datatype Verb = GET | POST | DELETE

  /** The action paths the client uses (the part of the URL after the endpoint). */
  datatype Action =
    | ZoneSearch(zoneName: string)                  // domains/search?exact={name}
    | RecordSearch(zoneId: nat, recordName: string) // domains/{zone}/records/txt/search?exact={name}
    | RecordCollection(zoneId: nat)                 // domains/{zone}/records/txt
    | RecordItem(zoneId: nat, recordId: nat)        // domains/{zone}/records/txt/{id}

  /** The JSON payload: `{}` or the TXT record data built by `_prepare_data`. */
  datatype Body = NoBody | RecordData(name: string, ttl: int, roundRobin: seq<string>)

  datatype Request = Request(verb: Verb, action: Action, body: Body)

  function ActionPath(a: Action): string {
    match a
    case ZoneSearch(name) => "domains/search?exact=" + name
    case RecordSearch(zone, name) => "domains/" + NatToString(zone) + "/records/txt/search?exact=" + name
    case RecordCollection(zone) => "domains/" + NatToString(zone) + "/records/txt"
    case RecordItem(zone, id) => "domains/" + NatToString(zone) + "/records/txt/" + NatToString(id)
  }

  /** `_get_url`: the endpoint, a slash, and the action path. */
  function GetUrl(endpoint: string, a: Action): string {
    endpoint + "/" + ActionPath(a)
  }

  /** `_prepare_data`: name, ttl and a single round-robin value holding the content. */
  function PrepareData(name: string, content: string, ttl: int): Body {
    RecordData(name, ttl, [content])
  }

  // The requests the client issues, one constructor per call site.

  function ZoneSearchRequest(zoneName: string): Request {
    Request(GET, ZoneSearch(zoneName), NoBody)
  }

  function RecordSearchRequest(zoneId: nat, recordName: string): Request {
    Request(GET, RecordSearch(zoneId, recordName), NoBody)
  }

  function RecordGetRequest(zoneId: nat, recordId: nat): Request {
    Request(GET, RecordItem(zoneId, recordId), NoBody)
  }

  function InsertRequest(zoneId: nat, body: Body): Request {
    Request(POST, RecordCollection(zoneId), body)
  }

  function DeleteRequest(zoneId: nat, recordId: nat): Request {
    Request(DELETE, RecordItem(zoneId, recordId), NoBody)
  }

  /** A request that only reads provider state. */
  predicate IsRead(r: Request) {
    r.verb == GET
  }

  predicate AllReads(rs: seq<Request>) {
    forall i :: 0 <= i < |rs| ==> IsRead(rs[i])
  }

  /** A numeral followed by a slash-led tail: the first slash sits right after the numeral. */
  lemma SlashAfterId(n: nat, x: string)
    requires |x| > 0 && x[0] == '/'
    ensures IndexOf(NatToString(n) + x, '/') == |NatToString(n)|
  {
    var d := NatToString(n);
    assert (d + x)[|d|] == '/';
    assert forall i :: 0 <= i < |d| ==> (d + x)[i] == d[i] && IsDigit(d[i]);
  }

  /** Two ids followed by slash-led tails split the same way only if both parts agree. */
  lemma IdThenSlash(a: nat, b: nat, x: string, y: string)
    requires |x| > 0 && x[0] == '/' && |y| > 0 && y[0] == '/'
    requires NatToString(a) + x == NatToString(b) + y
    ensures a == b && x == y
  {
    var da, db := NatToString(a), NatToString(b);
    SlashAfterId(a, x);
    SlashAfterId(b, y);
    assert |da| == |db|;
    assert da == (da + x)[..|da|] == (db + y)[..|db|] == db;
    ParseNatToString(a);
    ParseNatToString(b);
    assert x == (da + x)[|da|..] == (db + y)[|db|..] == y;
  }

  lemma SearchPathMarker(name: string)
    ensures |ActionPath(ZoneSearch(name))| > 8 && ActionPath(ZoneSearch(name))[8] == 's'
  {
  }

  lemma IdPathMarker(a: Action)
    requires !a.ZoneSearch?
    ensures |ActionPath(a)| > 8 && IsDigit(ActionPath(a)[8])
  {
    var d := NatToString(a.zoneId);
    assert ActionPath(a) == "domains/" + (d + ZoneTail(a));
  }

  /** The character after `domains/` is a digit exactly when the path names a zone id. */
  lemma PathMarker(a: Action)
    ensures |ActionPath(a)| > 8
    ensures a.ZoneSearch? ==> ActionPath(a)[8] == 's'
    ensures !a.ZoneSearch? ==> IsDigit(ActionPath(a)[8])
  {
    if a.ZoneSearch? {
      SearchPathMarker(a.zoneName);
    } else {
      IdPathMarker(a);
    }
  }

  /** The part of a non-search path that follows the zone id. */
  function ZoneTail(a: Action): (t: string)
    requires !a.ZoneSearch?
    ensures |t| > 0 && t[0] == '/'
    ensures ActionPath(a) == "domains/" + NatToString(a.zoneId) + t
  {
    match a
    case RecordSearch(_, name) => "/records/txt/search?exact=" + name
    case RecordCollection(_) => "/records/txt"
    case RecordItem(_, id) => "/records/txt/" + NatToString(id)
  }

  lemma ItemTailMarker(a: Action)
    requires a.RecordItem?
    ensures |ZoneTail(a)| > 13 && IsDigit(ZoneTail(a)[13])
  {
    var d := NatToString(a.recordId);
    assert ZoneTail(a) == "/records/txt/" + d;
  }

  /** The tail's length singles out the collection; its 14th character tells an item from a search. */
  lemma TailMarker(a: Action)
    requires !a.ZoneSearch?
    ensures a.RecordCollection? ==> |ZoneTail(a)| == 12
    ensures a.RecordSearch? ==> |ZoneTail(a)| >= 26 && ZoneTail(a)[13] == 's'
    ensures a.RecordItem? ==> |ZoneTail(a)| > 13 && IsDigit(ZoneTail(a)[13])
  {
    if a.RecordItem? {
      ItemTailMarker(a);
    }
  }

  lemma TailInjective(a1: Action, a2: Action)
    requires !a1.ZoneSearch? && !a2.ZoneSearch?
    requires a1.zoneId == a2.zoneId && ZoneTail(a1) == ZoneTail(a2)
    ensures a1 == a2
  {
    var t := ZoneTail(a1);
    assert a1.RecordCollection? == a2.RecordCollection? && a1.RecordItem? == a2.RecordItem? by {
      TailMarker(a1);
      TailMarker(a2);
    }
    if a1.RecordSearch? {
      assert a1.recordName == t[26..] == a2.recordName;
    } else if a1.RecordItem? {
      assert NatToString(a1.recordId) == t[13..] == NatToString(a2.recordId);
      ParseNatToString(a1.recordId);
      ParseNatToString(a2.recordId);
    }
  }

  lemma SearchPathSplit(a: Action)
    requires a.ZoneSearch?
    ensures |ActionPath(a)| >= 21 && ActionPath(a)[21..] == a.zoneName
  {
  }

  lemma IdPathSplit(a: Action)
    requires !a.ZoneSearch?
    ensures |ActionPath(a)| >= 8 && ActionPath(a)[8..] == NatToString(a.zoneId) + ZoneTail(a)
  {
    assert ActionPath(a) == "domains/" + (NatToString(a.zoneId) + ZoneTail(a));
  }

  /** Each action path names exactly one action. */
  lemma ActionPathInjective(a1: Action, a2: Action)
    requires ActionPath(a1) == ActionPath(a2)
    ensures a1 == a2
  {
    assert a1.ZoneSearch? == a2.ZoneSearch? by {
      PathMarker(a1);
      PathMarker(a2);
    }
    if a1.ZoneSearch? {
      SearchPathSplit(a1);
      SearchPathSplit(a2);
    } else {
      IdPathSplit(a1);
      IdPathSplit(a2);
      IdThenSlash(a1.zoneId, a2.zoneId, ZoneTail(a1), ZoneTail(a2));
      TailInjective(a1, a2);
    }
  }

  /** Distinct actions are sent to distinct URLs under the same endpoint. */
  lemma UrlInjective(endpoint: string, a1: Action, a2: Action)
    requires GetUrl(endpoint, a1) == GetUrl(endpoint, a2)
    ensures a1 == a2
  {
    var n := |endpoint| + 1;
    assert ActionPath(a1) == GetUrl(endpoint, a1)[n..];
    assert ActionPath(a2) == GetUrl(endpoint, a2)[n..];
    ActionPathInjective(a1, a2);
  }
}

=== FILE: client.dfy ===
/**
 * `_ConstellixClient`: the client that resolves the zone for a challenge
 * record and adds or removes the TXT record through the provider's API.
 * Each method sends its requests to the provider one at a time and is
 * proved to return, send and change exactly what the matching function of
 * `Reconcile` says.
 */
module Client {
  import opened Wrappers
  import opened Text
  import opened Api
  import opened Provider
  import opened Reconcile

  class ConstellixClient {
    const endpoint: string
    const apiKey: string
    const secretKey: string
    /** The provider account reached at `endpoint` with these credentials. */
    const provider: DnsProvider

    constructor (endpoint: string, apiKey: string, secretKey: string, provider: DnsProvider)
      ensures this.endpoint == endpoint && this.apiKey == apiKey && this.secretKey == secretKey
      ensures this.provider == provider
    {
      this.endpoint := endpoint;
      this.apiKey := apiKey;
      this.secretKey := secretKey;
      this.provider := provider;
    }

    /** The zone for the record: the first candidate the provider knows; errors move on to the next. */
    method FindManagedZoneId(domain: string, recordName: string) returns (zone: Option<Zone>)
      modifies provider`log
      ensures var walk := ZoneWalk(old(provider.State()), Candidates(domain, recordName));
        zone == walk.value && provider.log == old(provider.log) + walk.sent
      ensures provider.State() == old(provider.State())
    {
      ghost var s := provider.State();
      var guesses := [recordName] + BaseDomainNameGuesses(domain);
      var i := 0;
      while i < |guesses|
        invariant i <= |guesses|
        invariant provider.State() == s
        invariant forall j :: 0 <= j < i ==> !Hit(s, guesses[j])
        invariant provider.log == old(provider.log) + ZoneSearches(guesses[..i])
      {
        var response := provider.SearchZones(guesses[i]);
        ZoneSearchesSnoc(guesses[..i], guesses[i]);
        ConcatAssoc(old(provider.log), ZoneSearches(guesses[..i]), [ZoneSearchRequest(guesses[i])]);
        assert guesses[..i + 1] == guesses[..i] + [guesses[i]];
        if response.Ok? && |response.body| > 0 {
          ZoneWalkFirstHit(s, guesses, i);
          return Some(response.body[0]);
        }
        i := i + 1;
      }
      assert guesses[..i] == guesses;
      ZoneWalkMisses(s, guesses);
      return None;
    }

    /** The first record named `recordName` whose full content is `content`, if any. */
    method GetExistingTxt(zoneId: nat, recordName: string, content: string)
      returns (r: Result<Option<TxtRecord>, Error>)
      modifies provider`log
      ensures var found := ExistingTxt(old(provider.State()), zoneId, recordName, content);
        r == found.value && provider.log == old(provider.log) + found.sent
      ensures provider.State() == old(provider.State())
    {
      ghost var s := provider.State();
      ghost var log0 := provider.log;
      var search := provider.SearchRecords(zoneId, recordName);
      match search
      case Unreadable(text) =>
        r := Failure(ApiResponseUnknown(text));
      case Refused(_) =>
        r := Success(None);
      case Ok(ids) =>
        ghost var walk := MatchWalk(s, zoneId, ids, content);
        ExistingTxtSearched(s, zoneId, recordName, content);
        r := MatchRecords(zoneId, ids, content);
        ConcatAssoc(log0, [RecordSearchRequest(zoneId, recordName)], walk.sent);
    }

    /** The loop of `get_existing_txt` over the search hits: fetch each record until one has the content. */
    method MatchRecords(zoneId: nat, ids: seq<nat>, content: string)
      returns (r: Result<Option<TxtRecord>, Error>)
      modifies provider`log
      ensures var walk := MatchWalk(old(provider.State()), zoneId, ids, content);
        r == walk.value && provider.log == old(provider.log) + walk.sent
      ensures provider.State() == old(provider.State())
    {
      ghost var s := provider.State();
      var k := 0;
      while k < |ids|
        invariant k <= |ids|
        invariant provider.State() == s
        invariant forall j :: 0 <= j < k ==> Passes(s, zoneId, ids[j], content)
        invariant provider.log == old(provider.log) + Fetches(zoneId, ids[..k])
      {
        var fetched := provider.GetRecord(zoneId, ids[k]);
        FetchesSnoc(zoneId, ids[..k], ids[k]);
        ConcatAssoc(old(provider.log), Fetches(zoneId, ids[..k]), [RecordGetRequest(zoneId, ids[k])]);
        assert ids[..k + 1] == ids[..k] + [ids[k]];
        if !fetched.Ok? {
          MatchWalkFails(s, zoneId, ids, content, k);
          return Failure(FetchError(fetched));
        }
        var data := fetched.body;
        assert GetRecordAnswer(s, zoneId, ids[k]) == Ok(data);
        var fullvalue := JoinValues(data.values);
        if fullvalue == content {
          MatchWalkFound(s, zoneId, ids, content, k);
          return Success(Some(data));
        }
        assert Passes(s, zoneId, ids[k], content);
        assert forall j :: 0 <= j < k + 1 ==> Passes(s, zoneId, ids[j], content);
        k := k + 1;
      }
      assert ids[..k] == ids;
      MatchWalkNone(s, zoneId, ids, content);
      return Success(None);
    }

    /** The loop of `get_existing_txt` that builds a record's full content from its value parts. */
    static method JoinValues(values: seq<string>) returns (fullvalue: string)
      ensures fullvalue == FullContent(values)
    {
      fullvalue := "";
      var j := 0;
      while j < |values|
        invariant j <= |values|
        invariant fullvalue == FullContent(values[..j])
      {
        assert values[..j + 1][..j] == values[..j];
        fullvalue := fullvalue + StripQuotes(values[j]);
        j := j + 1;
      }
      assert values[..j] == values;
    }

    /** POST a new TXT record holding `content`. */
    method InsertTxtRecord(zoneId: nat, recordName: string, content: string, ttl: int)
      returns (r: Outcome<Error>)
      modifies provider`log, provider`records, provider`nextId
      ensures var run := InsertTxt(old(provider.State()), zoneId, recordName, content, ttl);
        r == run.outcome && provider.State() == run.after && provider.log == old(provider.log) + run.sent
    {
      var data := PrepareData(recordName, content, ttl);
      var response := provider.Insert(zoneId, data);
      r := if response.Unreadable? then Fail(ApiResponseUnknown(response.text)) else Pass;
    }

    /** DELETE the record with id `recordId`. */
    method DeleteTxtRecord(zoneId: nat, recordId: nat) returns (r: Outcome<Error>)
      modifies provider`log, provider`records
      ensures var run := DeleteTxt(old(provider.State()), zoneId, recordId);
        r == run.outcome && provider.State() == run.after && provider.log == old(provider.log) + run.sent
    {
      var response := provider.Delete(zoneId, recordId);
      r := if response.Unreadable? then Fail(ApiResponseUnknown(response.text)) else Pass;
    }

    /** Make sure a TXT record with `content` exists at `recordName`. */
    method AddTxtRecord(domain: string, recordName: string, content: string, ttl: int)
      returns (r: Outcome<Error>)
      modifies provider`log, provider`records, provider`nextId
      ensures var run := AddTxt(old(provider.State()), domain, recordName, content, ttl);
        r == run.outcome && provider.State() == run.after && provider.log == old(provider.log) + run.sent
    {
      ghost var s := provider.State();
      ghost var log0 := provider.log;
      ghost var walkSent := ZoneWalk(s, Candidates(domain, recordName)).sent;
      var zone := FindManagedZoneId(domain, recordName);
      if zone.None? {
        return Fail(DomainNotKnown);
      }
      var name := RelativeName(recordName, zone.value.name);
      var record := GetExistingTxt(zone.value.id, name, content);
      ghost var found := ExistingTxt(s, zone.value.id, name, content);
      ConcatAssoc(log0, walkSent, found.sent);
      if record.Failure? {
        return Fail(record.error);
      }
      if record.value.Some? {
        return Pass;
      }
      ghost var write := InsertTxt(s, zone.value.id, name, content, ttl);
      r := InsertTxtRecord(zone.value.id, name, content, ttl);
      ConcatAssoc(log0, walkSent + found.sent, write.sent);
    }

    /** Make sure no TXT record with `content` exists at `recordName`. */
    method DelTxtRecord(domain: string, recordName: string, content: string, ttl: int)
      returns (r: Outcome<Error>)
      modifies provider`log, provider`records
      ensures var run := DelTxt(old(provider.State()), domain, recordName, content, ttl);
        r == run.outcome && provider.State() == run.after && provider.log == old(provider.log) + run.sent
    {
      ghost var s := provider.State();
      ghost var log0 := provider.log;
      ghost var walkSent := ZoneWalk(s, Candidates(domain, recordName)).sent;
      var zone := FindManagedZoneId(domain, recordName);
      if zone.None? {
        return Fail(DomainNotKnown);
      }
      var name := RelativeName(recordName, zone.value.name);
      var record := GetExistingTxt(zone.value.id, name, content);
      ghost var found := ExistingTxt(s, zone.value.id, name, content);
      ConcatAssoc(log0, walkSent, found.sent);
      if record.Failure? {
        return Fail(record.error);
      }
      if record.value.None? {
        return Pass;
      }
      ghost var write := DeleteTxt(s, zone.value.id, record.value.value.id);
      r := DeleteTxtRecord(zone.value.id, record.value.value.id);
      ConcatAssoc(log0, walkSent + found.sent, write.sent);
    }
  }
}

=== FILE: findings.dfy ===
/**
 * `add_txt_record` and `del_txt_record` exactly as written, next to the
 * corrected `Reconcile.AddTxt` and `Reconcile.DelTxt` the rest of the model
 * uses. Two paths differ:
 *  - when no candidate zone hits, `_find_managed_zone_id` returns a bare
 *    `None`, and unpacking it into `zone_id, zone_name` raises a TypeError,
 *    so the "Domain not known" error is never reached;
 *  - when a record with the content exists, `add_txt_record` reads its
 *    `"data"` key, which a fetched TXT record does not have (its parts are
 *    under `"value"`), so adding a second time raises a KeyError.
 */
module Findings {
  import opened Wrappers
  import opened Text
  import opened Api
  import opened Provider
  import opened Reconcile
  import opened Properties

  /** `add_txt_record` as written. */
  function AddAsWritten(s: Store, domain: string, recordName: string, content: string, ttl: int): Run {
    var walk := ZoneWalk(s, Candidates(domain, recordName));
    match walk.value
    case None => Run(Fail(CannotUnpackNone), walk.sent, s)
    case Some(zone) =>
      var name := RelativeName(recordName, zone.name);
      var found := ExistingTxt(s, zone.id, name, content);
      match found.value
      case Failure(e) => Run(Fail(e), walk.sent + found.sent, s)
      case Success(Some(_)) => Run(Fail(MissingKey("data")), walk.sent + found.sent, s)
      case Success(None) =>
        var insert := InsertTxt(s, zone.id, name, content, ttl);
        Run(insert.outcome, walk.sent + found.sent + insert.sent, insert.after)
  }

  /** `del_txt_record` as written. */
  function DelAsWritten(s: Store, domain: string, recordName: string, content: string, ttl: int): Run {
    var walk := ZoneWalk(s, Candidates(domain, recordName));
    if walk.value.None? then Run(Fail(CannotUnpackNone), walk.sent, s)
    else DelTxt(s, domain, recordName, content, ttl)
  }

  /**
   * As written, the two operations send the same requests and leave the
   * same state as the corrected ones; their outcomes differ only by the
   * unpacking error in place of "Domain not known", and, for add, by the
   * missing-key error in place of success when the record is already there.
   */
  lemma AsWrittenDiffersOnlyInOutcome(s: Store, domain: string, recordName: string, content: string, ttl: int)
    ensures var written := AddAsWritten(s, domain, recordName, content, ttl);
      var corrected := AddTxt(s, domain, recordName, content, ttl);
      written.sent == corrected.sent && written.after == corrected.after &&
      (written.outcome != corrected.outcome ==>
        (written.outcome == Fail(CannotUnpackNone) && corrected.outcome == Fail(DomainNotKnown)) ||
        (written.outcome == Fail(MissingKey("data")) && corrected.outcome == Pass))
    ensures var written := DelAsWritten(s, domain, recordName, content, ttl);
      var corrected := DelTxt(s, domain, recordName, content, ttl);
      written.sent == corrected.sent && written.after == corrected.after &&
      (written.outcome != corrected.outcome ==>
        written.outcome == Fail(CannotUnpackNone) && corrected.outcome == Fail(DomainNotKnown))
  {
  }

  /**
   * As written, an unknown domain makes both operations fail with the
   * unpacking error, never with "Domain not known" (compare
   * `Properties.UnknownDomain`).
   */
  lemma UnknownDomainAsWritten(s: Store, domain: string, recordName: string, content: string, ttl: int)
    requires var cands := Candidates(domain, recordName);
      forall j :: 0 <= j < |cands| ==> !Hit(s, cands[j])
    ensures AddAsWritten(s, domain, recordName, content, ttl).outcome == Fail(CannotUnpackNone)
    ensures DelAsWritten(s, domain, recordName, content, ttl).outcome == Fail(CannotUnpackNone)
  {
    ZoneWalkNotFound(s, Candidates(domain, recordName));
  }

  /**
   * As written, adding is not idempotent: on a valid store that answers
   * every request and knows the domain, the second of two identical adds
   * always fails with the missing-key error (compare
   * `Properties.AddIdempotent`, where it succeeds without writing).
   */
  lemma RepeatedAddAsWrittenFails(s: Store, domain: string, recordName: string, content: string, ttl: int)
    requires Valid(s) && s.faults == map[] && NoEdgeQuote(content)
    requires ZoneWalk(s, Candidates(domain, recordName)).value.Some?
    ensures var first := AddAsWritten(s, domain, recordName, content, ttl);
      AddAsWritten(first.after, domain, recordName, content, ttl).outcome == Fail(MissingKey("data"))
  {
    var cands := Candidates(domain, recordName);
    var zone := ZoneWalk(s, cands).value.value;
    ZoneWalkResolvesKnownZone(s, cands);
    var name := RelativeName(recordName, zone.name);
    var recs := s.records[zone.id];
    assert SearchRecordsAnswer(s, zone.id, name) == Ok(IdsNamed(recs, name));
    MatchWalkNoFaults(s, zone.id, IdsNamed(recs, name), content);
    if ExistingTxt(s, zone.id, name, content).value == Success(None) {
      LookupFindsInserted(s, zone.id, name, content, ttl);
      var s1 := AfterInsert(s, zone.id, PrepareData(name, content, ttl));
      ZoneWalkSameZones(s, s1, cands);
    }
  }
}

=== FILE: properties.dfy ===
/**
 * What `add_txt_record` and `del_txt_record` promise, stated over the
 * functions of `Reconcile`: which requests they send, which of those
 * write, what the provider's records look like afterwards, and what
 * happens when the same operation runs twice or an add is undone.
 */
module Properties {
  import opened Wrappers
  import opened Text
  import opened Api
  import opened Provider
  import opened Reconcile

  // ---------------------------------------------------------------------
  // Lookups only read
  // ---------------------------------------------------------------------

  lemma AllReadsAppend(a: seq<Request>, b: seq<Request>)
    requires AllReads(a) && AllReads(b)
    ensures AllReads(a + b)
  {
    assert forall i :: 0 <= i < |a + b| ==> (a + b)[i] == if i < |a| then a[i] else b[i - |a|];
  }

  /** The zone walk sends only GET requests. */
  lemma {:induction false} ZoneWalkReads(s: Store, cands: seq<string>)
    ensures AllReads(ZoneWalk(s, cands).sent)
    decreases |cands|
  {
    if cands != [] && !Hit(s, cands[0]) {
      ZoneWalkReads(s, cands[1..]);
      AllReadsAppend([ZoneSearchRequest(cands[0])], ZoneWalk(s, cands[1..]).sent);
    }
  }

  /** The record walk sends only GET requests. */
  lemma {:induction false} MatchWalkReads(s: Store, zoneId: nat, ids: seq<nat>, content: string)
    ensures AllReads(MatchWalk(s, zoneId, ids, content).sent)
    decreases |ids|
  {
    if ids != [] && Passes(s, zoneId, ids[0], content) {
      MatchWalkReads(s, zoneId, ids[1..], content);
      AllReadsAppend([RecordGetRequest(zoneId, ids[0])], MatchWalk(s, zoneId, ids[1..], content).sent);
    }
  }

  /** Looking for an existing record sends only GET requests. */
  lemma ExistingTxtReads(s: Store, zoneId: nat, name: string, content: string)
    ensures AllReads(ExistingTxt(s, zoneId, name, content).sent)
  {
    var answer := SearchRecordsAnswer(s, zoneId, name);
    if answer.Ok? {
      MatchWalkReads(s, zoneId, answer.body, content);
      AllReadsAppend([RecordSearchRequest(zoneId, name)], MatchWalk(s, zoneId, answer.body, content).sent);
    }
  }

  // ---------------------------------------------------------------------
  // What a lookup can return
  // ---------------------------------------------------------------------

  /** A record-walk error comes from an unreadable or non-200 fetch. */
  lemma {:induction false} MatchWalkErrors(s: Store, zoneId: nat, ids: seq<nat>, content: string)
    ensures var v := MatchWalk(s, zoneId, ids, content).value;
      v.Failure? ==> v.error.ApiResponseUnknown? || v.error == MissingKey("value")
    decreases |ids|
  {
    if ids != [] && Passes(s, zoneId, ids[0], content) {
      MatchWalkErrors(s, zoneId, ids[1..], content);
    }
  }

  /**
   * A record the walk returns is a stored record of the zone, with one of
   * the searched ids and exactly the wanted full content.
   */
  lemma {:induction false} MatchWalkSound(s: Store, zoneId: nat, ids: seq<nat>, content: string)
    ensures var v := MatchWalk(s, zoneId, ids, content).value;
      v.Success? && v.value.Some? ==>
        zoneId in s.records && v.value.value in s.records[zoneId] &&
        v.value.value.id in ids && FullContent(v.value.value.values) == content
    decreases |ids|
  {
    if ids != [] && Passes(s, zoneId, ids[0], content) {
      MatchWalkSound(s, zoneId, ids[1..], content);
    }
  }

  /**
   * `get_existing_txt` only returns a stored record of the zone that the
   * search listed under `name` and whose full content is `content`; on a
   * valid store, where ids are unique within a zone, the record is named
   * `name`. Its errors are the unreadable-answer error and the
   * missing-value error.
   */
  lemma ExistingTxtSound(s: Store, zoneId: nat, name: string, content: string)
    ensures var v := ExistingTxt(s, zoneId, name, content).value;
      (v.Success? && v.value.Some? ==>
        zoneId in s.records && v.value.value in s.records[zoneId] &&
        v.value.value.id in IdsNamed(s.records[zoneId], name) &&
        FullContent(v.value.value.values) == content &&
        (Valid(s) ==> v.value.value.name == name)) &&
      (v.Failure? ==> v.error.ApiResponseUnknown? || v.error == MissingKey("value"))
  {
    var answer := SearchRecordsAnswer(s, zoneId, name);
    if answer.Ok? {
      MatchWalkSound(s, zoneId, answer.body, content);
      MatchWalkErrors(s, zoneId, answer.body, content);
      var v := ExistingTxt(s, zoneId, name, content).value;
      if v.Success? && v.value.Some? && Valid(s) {
        var found := v.value.value;
        var named :| named in s.records[zoneId] && named.id == found.id && named.name == name;
        assert named == found;
      }
    }
  }

  /** A search that is not answered 200 finds nothing and fetches no record. */
  lemma ExistingTxtRefusedSearch(s: Store, zoneId: nat, name: string, content: string)
    requires !SearchRecordsAnswer(s, zoneId, name).Ok?
    ensures ExistingTxt(s, zoneId, name, content).sent == [RecordSearchRequest(zoneId, name)]
    ensures ExistingTxt(s, zoneId, name, content).value.Success? ==>
      ExistingTxt(s, zoneId, name, content).value == Success(None)
  {
  }

  // ---------------------------------------------------------------------
  // Domain not known
  // ---------------------------------------------------------------------

  /**
   * Add and delete fail with "Domain not known" exactly when no candidate
   * zone hits; they then have sent only the zone searches and changed
   * nothing.
   */
  lemma UnknownDomain(s: Store, domain: string, recordName: string, content: string, ttl: int)
    ensures var cands := Candidates(domain, recordName);
      var unknown := forall j :: 0 <= j < |cands| ==> !Hit(s, cands[j]);
      (AddTxt(s, domain, recordName, content, ttl).outcome == Fail(DomainNotKnown) <==> unknown) &&
      (DelTxt(s, domain, recordName, content, ttl).outcome == Fail(DomainNotKnown) <==> unknown)
    ensures var cands := Candidates(domain, recordName);
      (forall j :: 0 <= j < |cands| ==> !Hit(s, cands[j])) ==>
        AddTxt(s, domain, recordName, content, ttl) == Run(Fail(DomainNotKnown), ZoneSearches(cands), s) &&
        DelTxt(s, domain, recordName, content, ttl) == Run(Fail(DomainNotKnown), ZoneSearches(cands), s)
  {
    var cands := Candidates(domain, recordName);
    var walk := ZoneWalk(s, cands);
    ZoneWalkNotFound(s, cands);
    if walk.value.None? {
      ZoneWalkMisses(s, cands);
    } else {
      var zone := walk.value.value;
      ExistingTxtSound(s, zone.id, RelativeName(recordName, zone.name), content);
    }
  }

  // ---------------------------------------------------------------------
  // The writes
  // ---------------------------------------------------------------------

  /**
   * `add_txt_record` writes at most once. Its one write is the last request
   * and happens exactly when the zone resolves and the lookup finds none
   * (no record has the content, or the record search was not answered 200):
   * a POST of the prepared payload to the zone's record collection.
   * Otherwise it only reads and leaves the provider as it was; when a record
   * has the content it also reports no error.
   */
  lemma AddTxtWrites(s: Store, domain: string, recordName: string, content: string, ttl: int)
    ensures var run := AddTxt(s, domain, recordName, content, ttl);
      ZoneWalk(s, Candidates(domain, recordName)).value.None? ==> AllReads(run.sent) && run.after == s
    ensures var run := AddTxt(s, domain, recordName, content, ttl);
      var walk := ZoneWalk(s, Candidates(domain, recordName));
      walk.value.Some? ==>
        var zone := walk.value.value;
        var name := RelativeName(recordName, zone.name);
        var found := ExistingTxt(s, zone.id, name, content).value;
        var body := PrepareData(name, content, ttl);
        if found == Success(None) then
          |run.sent| > 0 && AllReads(run.sent[..|run.sent| - 1]) &&
          run.sent[|run.sent| - 1] == InsertRequest(zone.id, body) &&
          run.after == AfterInsert(s, zone.id, body)
        else
          AllReads(run.sent) && run.after == s && (found.Success? ==> run.outcome == Pass)
  {
    var walk := ZoneWalk(s, Candidates(domain, recordName));
    ZoneWalkReads(s, Candidates(domain, recordName));
    if walk.value.Some? {
      var zone := walk.value.value;
      var name := RelativeName(recordName, zone.name);
      var found := ExistingTxt(s, zone.id, name, content);
      ExistingTxtReads(s, zone.id, name, content);
      AllReadsAppend(walk.sent, found.sent);
      if found.value == Success(None) {
        var run := AddTxt(s, domain, recordName, content, ttl);
        assert run.sent == walk.sent + found.sent + [InsertRequest(zone.id, PrepareData(name, content, ttl))];
        assert run.sent[..|run.sent| - 1] == walk.sent + found.sent;
      }
    }
  }

  /**
   * `del_txt_record` writes at most once. Its one write is the last request
   * and happens exactly when the zone resolves and a record has the content:
   * a DELETE of that record's id in the zone. Otherwise, in particular when
   * no record matches, it only reads and leaves the provider as it was; with
   * no match it also reports no error.
   */
  lemma DelTxtWrites(s: Store, domain: string, recordName: string, content: string, ttl: int)
    ensures var run := DelTxt(s, domain, recordName, content, ttl);
      ZoneWalk(s, Candidates(domain, recordName)).value.None? ==> AllReads(run.sent) && run.after == s
    ensures var run := DelTxt(s, domain, recordName, content, ttl);
      var walk := ZoneWalk(s, Candidates(domain, recordName));
      walk.value.Some? ==>
        var zone := walk.value.value;
        var found := ExistingTxt(s, zone.id, RelativeName(recordName, zone.name), content).value;
        if found.Success? && found.value.Some? then
          var record := found.value.value;
          |run.sent| > 0 && AllReads(run.sent[..|run.sent| - 1]) &&
          run.sent[|run.sent| - 1] == DeleteRequest(zone.id, record.id) &&
          run.after == AfterDelete(s, zone.id, record.id)
        else
          AllReads(run.sent) && run.after == s && (found == Success(None) ==> run.outcome == Pass)
  {
    var walk := ZoneWalk(s, Candidates(domain, recordName));
    ZoneWalkReads(s, Candidates(domain, recordName));
    if walk.value.Some? {
      var zone := walk.value.value;
      var name := RelativeName(recordName, zone.name);
      var found := ExistingTxt(s, zone.id, name, content);
      ExistingTxtReads(s, zone.id, name, content);
      AllReadsAppend(walk.sent, found.sent);
      if found.value.Success? && found.value.value.Some? {
        var run := DelTxt(s, domain, recordName, content, ttl);
        assert run.sent == walk.sent + found.sent + [DeleteRequest(zone.id, found.value.value.value.id)];
        assert run.sent[..|run.sent| - 1] == walk.sent + found.sent;
      }
    }
  }

  /**
   * The status of the POST is not looked at: when the lookup finds none and
   * the create request is refused with a non-200 status, add reports
   * success although no record was written.
   */
  lemma AddPassesOnRefusedWrite(s: Store, domain: string, recordName: string, content: string, ttl: int)
    requires ZoneWalk(s, Candidates(domain, recordName)).value.Some?
    requires var zone := ZoneWalk(s, Candidates(domain, recordName)).value.value;
      var name := RelativeName(recordName, zone.name);
      ExistingTxt(s, zone.id, name, content).value == Success(None) &&
      InsertAnswer(s, zone.id, PrepareData(name, content, ttl)).Refused?
    ensures AddTxt(s, domain, recordName, content, ttl).outcome == Pass
    ensures AddTxt(s, domain, recordName, content, ttl).after == s
  {
  }

  /**
   * Likewise for the DELETE: when a record matches and its delete request is
   * refused with a non-200 status, delete reports success although the
   * record is still stored.
   */
  lemma DelPassesOnRefusedWrite(s: Store, domain: string, recordName: string, content: string, ttl: int)
    requires ZoneWalk(s, Candidates(domain, recordName)).value.Some?
    requires var zone := ZoneWalk(s, Candidates(domain, recordName)).value.value;
      var found := ExistingTxt(s, zone.id, RelativeName(recordName, zone.name), content).value;
      found.Success? && found.value.Some? &&
      DeleteAnswer(s, zone.id, found.value.value.id).Refused?
    ensures DelTxt(s, domain, recordName, content, ttl).outcome == Pass
    ensures DelTxt(s, domain, recordName, content, ttl).after == s
  {
  }

  /** The records a store keeps when it goes from `s` to `after`, given the content that may go. */
  ghost predicate KeepsOtherContent(s: Store, after: Store, content: string) {
    after.zones == s.zones && after.nextId == s.nextId && after.faults == s.faults &&
    (forall zoneId :: zoneId in after.records <==> zoneId in s.records) &&
    (forall zoneId, rec :: zoneId in s.records && rec in after.records[zoneId] ==> rec in s.records[zoneId]) &&
    (forall zoneId, rec :: zoneId in s.records && rec in s.records[zoneId] && FullContent(rec.values) != content ==>
      rec in after.records[zoneId])
  }

  /** Deleting, by id, a stored record with the content keeps every record with other content. */
  lemma DeleteKeepsOtherContent(s: Store, zoneId: nat, matched: TxtRecord, content: string)
    requires Valid(s) && zoneId in s.records && matched in s.records[zoneId]
    requires FullContent(matched.values) == content
    ensures KeepsOtherContent(s, AfterDelete(s, zoneId, matched.id), content)
  {
    if DeleteAnswer(s, zoneId, matched.id).Ok? {
      DeleteRemovesRecord(s, zoneId, matched.id);
      assert forall rec :: rec in s.records[zoneId] && rec.id == matched.id ==> rec == matched;
    }
  }

  /**
   * `del_txt_record` only ever removes records whose full content is the
   * content asked for: on a valid store, every record with other content
   * (at the same name or any other) is still there afterwards, nothing is
   * added, and the zones and the next id are untouched.
   */
  lemma DelTxtKeepsOthers(s: Store, domain: string, recordName: string, content: string, ttl: int)
    requires Valid(s)
    ensures KeepsOtherContent(s, DelTxt(s, domain, recordName, content, ttl).after, content)
  {
    var walk := ZoneWalk(s, Candidates(domain, recordName));
    DelTxtWrites(s, domain, recordName, content, ttl);
    if walk.value.Some? {
      var zone := walk.value.value;
      var name := RelativeName(recordName, zone.name);
      var found := ExistingTxt(s, zone.id, name, content);
      ExistingTxtSound(s, zone.id, name, content);
      if found.value.Success? && found.value.value.Some? {
        DeleteKeepsOtherContent(s, zone.id, found.value.value.value, content);
      }
    }
  }

  /** Looking up an id after appending a record: an earlier record with the id wins, else the appended one if it has the id. */
  lemma {:induction false} FindByIdAppend(recs: seq<TxtRecord>, rec: TxtRecord, id: nat)
    ensures FindById(recs + [rec], id) ==
      if FindById(recs, id).Some? then FindById(recs, id)
      else if rec.id == id then Some(rec)
      else None
    decreases |recs|
  {
    if recs == [] {
      assert recs + [rec] == [rec];
    } else {
      assert (recs + [rec])[1..] == recs[1..] + [rec];
      FindByIdAppend(recs[1..], rec, id);
    }
  }

  /**
   * A successful insert appends one record to the zone and changes nothing
   * else: the record has the payload's name and ttl, an id no stored record
   * of any zone has, and (for content with no edge quotes) exactly the
   * content as its full content.
   */
  lemma InsertAddsRecord(s: Store, zoneId: nat, name: string, content: string, ttl: int)
    requires Valid(s)
    requires InsertAnswer(s, zoneId, PrepareData(name, content, ttl)).Ok?
    ensures var after := AfterInsert(s, zoneId, PrepareData(name, content, ttl));
      zoneId in s.records && zoneId in after.records &&
      |after.records[zoneId]| == |s.records[zoneId]| + 1 &&
      after.records[zoneId][..|s.records[zoneId]|] == s.records[zoneId] &&
      (forall z :: z != zoneId ==> (z in after.records <==> z in s.records)) &&
      (forall z :: z != zoneId && z in s.records ==> after.records[z] == s.records[z]) &&
      after.zones == s.zones && after.faults == s.faults
    ensures var after := AfterInsert(s, zoneId, PrepareData(name, content, ttl));
      var added := after.records[zoneId][|s.records[zoneId]|];
      added.name == name && added.ttl == ttl &&
      (forall z, rec :: z in s.records && rec in s.records[z] ==> rec.id != added.id) &&
      (NoEdgeQuote(content) ==> FullContent(added.values) == content)
  {
    var body := PrepareData(name, content, ttl);
    var added := NewRecord(s, body);
    var recs := s.records[zoneId];
    assert (recs + [added])[..|recs|] == recs;
    assert QuoteAll([content]) == [Quote(content)];
    if NoEdgeQuote(content) {
      FullContentOfQuoted(content);
    }
  }

  /** An insert keeps the store valid: the new record's id is the next id, which no stored record has. */
  lemma InsertKeepsValid(s: Store, zoneId: nat, body: Body)
    requires Valid(s)
    ensures Valid(AfterInsert(s, zoneId, body))
  {
    if InsertAnswer(s, zoneId, body).Ok? {
      var added := NewRecord(s, body);
      var after := AfterInsert(s, zoneId, body);
      assert forall rec :: rec in after.records[zoneId] ==> rec in s.records[zoneId] || rec == added;
    }
  }

  /**
   * A successful delete removes every record with the id from the zone and
   * keeps every other record of it; other zones, the zone list and the next
   * id are untouched, and a valid store stays valid.
   */
  lemma DeleteRemovesRecord(s: Store, zoneId: nat, recordId: nat)
    requires DeleteAnswer(s, zoneId, recordId).Ok?
    ensures var after := AfterDelete(s, zoneId, recordId);
      zoneId in s.records && zoneId in after.records &&
      (exists rec :: rec in s.records[zoneId] && rec.id == recordId) &&
      (forall rec :: rec in after.records[zoneId] <==> rec in s.records[zoneId] && rec.id != recordId) &&
      (forall z :: z != zoneId ==> (z in after.records <==> z in s.records)) &&
      (forall z :: z != zoneId && z in s.records ==> after.records[z] == s.records[z]) &&
      after.zones == s.zones && after.nextId == s.nextId && after.faults == s.faults &&
      (Valid(s) ==> Valid(after))
  {
    var rec := FindById(s.records[zoneId], recordId).value;
    assert rec in s.records[zoneId] && rec.id == recordId;
  }

  /** Add and delete keep the store valid, so their properties chain from one run to the next. */
  lemma OperationsKeepValid(s: Store, domain: string, recordName: string, content: string, ttl: int)
    requires Valid(s)
    ensures Valid(AddTxt(s, domain, recordName, content, ttl).after)
    ensures Valid(DelTxt(s, domain, recordName, content, ttl).after)
  {
    var walk := ZoneWalk(s, Candidates(domain, recordName));
    if walk.value.Some? {
      var zone := walk.value.value;
      var name := RelativeName(recordName, zone.name);
      InsertKeepsValid(s, zone.id, PrepareData(name, content, ttl));
      var found := ExistingTxt(s, zone.id, name, content).value;
      if found.Success? && found.value.Some? && DeleteAnswer(s, zone.id, found.value.value.id).Ok? {
        DeleteRemovesRecord(s, zone.id, found.value.value.id);
      }
    }
  }

  // ---------------------------------------------------------------------
  // Running an operation again
  // ---------------------------------------------------------------------

  /** The zone walk depends only on the zones and the faults. */
  lemma {:induction false} ZoneWalkSameZones(s: Store, s2: Store, cands: seq<string>)
    requires s2.zones == s.zones && s2.faults == s.faults
    ensures ZoneWalk(s2, cands) == ZoneWalk(s, cands)
    decreases |cands|
  {
    if cands != [] {
      assert SearchZonesAnswer(s2, cands[0]) == SearchZonesAnswer(s, cands[0]);
      ZoneWalkSameZones(s, s2, cands[1..]);
    }
  }

  lemma IdsNamedAppend(recs: seq<TxtRecord>, rec: TxtRecord, name: string)
    ensures IdsNamed(recs + [rec], name) == IdsNamed(recs, name) + if rec.name == name then [rec.id] else []
  {
    assert (recs + [rec])[..|recs|] == recs;
  }

  /** Without faults, every id the search lists is fetched with status 200. */
  lemma {:induction false} MatchWalkNoFaults(s: Store, zoneId: nat, ids: seq<nat>, content: string)
    requires s.faults == map[] && zoneId in s.records
    requires forall id :: id in ids ==> exists rec :: rec in s.records[zoneId] && rec.id == id
    ensures MatchWalk(s, zoneId, ids, content).value.Success?
    decreases |ids|
  {
    if ids != [] {
      assert ids[0] in ids;
      assert FindById(s.records[zoneId], ids[0]).Some?;
      assert forall id :: id in ids[1..] ==> id in ids;
      MatchWalkNoFaults(s, zoneId, ids[1..], content);
    }
  }

  /** A walk that finds nothing has fetched every record successfully and seen other content. */
  lemma {:induction false} MatchWalkAllPass(s: Store, zoneId: nat, ids: seq<nat>, content: string)
    requires MatchWalk(s, zoneId, ids, content).value == Success(None)
    ensures forall j :: 0 <= j < |ids| ==> Passes(s, zoneId, ids[j], content)
    decreases |ids|
  {
    if ids != [] {
      MatchWalkAllPass(s, zoneId, ids[1..], content);
      assert forall j :: 1 <= j < |ids| ==> ids[j] == ids[1..][j - 1];
    }
  }

  /** When every listed record is passed over, the walk ends with what the extra id gives. */
  lemma {:induction false} MatchWalkExtend(s: Store, zoneId: nat, ids: seq<nat>, id: nat, content: string)
    requires forall j :: 0 <= j < |ids| ==> Passes(s, zoneId, ids[j], content)
    ensures MatchWalk(s, zoneId, ids + [id], content).value == MatchWalk(s, zoneId, [id], content).value
    decreases |ids|
  {
    if ids == [] {
      assert ids + [id] == [id];
    } else {
      assert Passes(s, zoneId, ids[0], content);
      assert (ids + [id])[1..] == ids[1..] + [id];
      MatchWalkExtend(s, zoneId, ids[1..], id, content);
    }
  }

  /**
   * Without faults, once a lookup has found nothing and the record has been
   * inserted, the same lookup finds the inserted record.
   */
  lemma LookupFindsInserted(s: Store, zoneId: nat, name: string, content: string, ttl: int)
    requires Valid(s) && s.faults == map[] && zoneId in s.records && NoEdgeQuote(content)
    requires ExistingTxt(s, zoneId, name, content).value == Success(None)
    ensures var body := PrepareData(name, content, ttl);
      InsertAnswer(s, zoneId, body) == Ok(NewRecord(s, body)) &&
      ExistingTxt(AfterInsert(s, zoneId, body), zoneId, name, content).value == Success(Some(NewRecord(s, body)))
  {
    var body := PrepareData(name, content, ttl);
    var added := NewRecord(s, body);
    var s1 := AfterInsert(s, zoneId, body);
    var recs := s.records[zoneId];
    var ids := IdsNamed(recs, name);
    assert s1.records[zoneId] == recs + [added];
    IdsNamedAppend(recs, added, name);
    assert SearchRecordsAnswer(s1, zoneId, name) == Ok(ids + [added.id]);
    MatchWalkAllPass(s, zoneId, ids, content);
    PassesAfterInsert(s, zoneId, body, ids, content);
    MatchWalkExtend(s1, zoneId, ids, added.id, content);
    InsertedMatches(s, zoneId, name, content, ttl);
  }

  /** A record that answered without the content still does so after an insert. */
  lemma PassesAfterInsert(s: Store, zoneId: nat, body: Body, ids: seq<nat>, content: string)
    requires s.faults == map[] && zoneId in s.records && body.RecordData?
    requires forall j :: 0 <= j < |ids| ==> Passes(s, zoneId, ids[j], content)
    ensures forall j :: 0 <= j < |ids| ==> Passes(AfterInsert(s, zoneId, body), zoneId, ids[j], content)
  {
    var recs := s.records[zoneId];
    var added := NewRecord(s, body);
    var s1 := AfterInsert(s, zoneId, body);
    assert s1.records[zoneId] == recs + [added];
    forall j | 0 <= j < |ids|
      ensures Passes(s1, zoneId, ids[j], content)
    {
      assert Passes(s, zoneId, ids[j], content);
      FindByIdAppend(recs, added, ids[j]);
    }
  }

  /** The record just inserted is fetched back with status 200 and the content it was given. */
  lemma InsertedMatches(s: Store, zoneId: nat, name: string, content: string, ttl: int)
    requires Valid(s) && s.faults == map[] && zoneId in s.records && NoEdgeQuote(content)
    ensures var body := PrepareData(name, content, ttl);
      var s1 := AfterInsert(s, zoneId, body);
      Matches(s1, zoneId, NewRecord(s, body).id, content) &&
      GetRecordAnswer(s1, zoneId, NewRecord(s, body).id) == Ok(NewRecord(s, body))
  {
    var body := PrepareData(name, content, ttl);
    var added := NewRecord(s, body);
    var s1 := AfterInsert(s, zoneId, body);
    var recs := s.records[zoneId];
    assert s1.records[zoneId] == recs + [added];
    FindByIdAppend(recs, added, added.id);
    assert FindById(recs, added.id).None?;
    assert QuoteAll([content]) == [Quote(content)];
    FullContentOfQuoted(content);
  }

  /**
   * `add_txt_record` is idempotent: on a valid store that answers every
   * request, running it a second time sends only reads, has the same
   * outcome and leaves the same records as the first run. Its outcome is
   * success unless the domain is not known.
   */
  lemma AddIdempotent(s: Store, domain: string, recordName: string, content: string, ttl: int)
    requires Valid(s) && s.faults == map[] && NoEdgeQuote(content)
    ensures var first := AddTxt(s, domain, recordName, content, ttl);
      var second := AddTxt(first.after, domain, recordName, content, ttl);
      second.outcome == first.outcome && second.after == first.after && AllReads(second.sent) &&
      (first.outcome == Pass || first.outcome == Fail(DomainNotKnown))
  {
    var cands := Candidates(domain, recordName);
    var walk := ZoneWalk(s, cands);
    var first := AddTxt(s, domain, recordName, content, ttl);
    AddTxtWrites(s, domain, recordName, content, ttl);
    if walk.value.Some? {
      var zone := walk.value.value;
      ZoneWalkResolvesKnownZone(s, cands);
      var name := RelativeName(recordName, zone.name);
      var recs := s.records[zone.id];
      assert SearchRecordsAnswer(s, zone.id, name) == Ok(IdsNamed(recs, name));
      MatchWalkNoFaults(s, zone.id, IdsNamed(recs, name), content);
      var found := ExistingTxt(s, zone.id, name, content);
      if found.value == Success(None) {
        var body := PrepareData(name, content, ttl);
        LookupFindsInserted(s, zone.id, name, content, ttl);
        InsertAddsRecord(s, zone.id, name, content, ttl);
        var s1 := AfterInsert(s, zone.id, body);
        assert first.after == s1 && first.outcome == Pass;
        ZoneWalkSameZones(s, s1, cands);
        AddTxtWrites(s1, domain, recordName, content, ttl);
      }
    }
  }

  lemma {:induction false} WithoutAbsentId(recs: seq<TxtRecord>, id: nat)
    requires forall i :: 0 <= i < |recs| ==> recs[i].id != id
    ensures WithoutId(recs, id) == recs
    decreases |recs|
  {
    if recs != [] {
      var init, last := recs[..|recs| - 1], recs[|recs| - 1];
      WithoutAbsentId(init, id);
      assert init + [last] == recs;
    }
  }

  lemma WithoutAppendedId(recs: seq<TxtRecord>, rec: TxtRecord)
    requires forall i :: 0 <= i < |recs| ==> recs[i].id != rec.id
    ensures WithoutId(recs + [rec], rec.id) == recs
  {
    WithoutAbsentId(recs, rec.id);
    assert (recs + [rec])[..|recs|] == recs;
  }

  lemma StoredIdsBelow(s: Store, zoneId: nat)
    requires Valid(s) && zoneId in s.records
    ensures forall i :: 0 <= i < |s.records[zoneId]| ==> s.records[zoneId][i].id < s.nextId
  {
    forall i | 0 <= i < |s.records[zoneId]|
      ensures s.records[zoneId][i].id < s.nextId
    {
      assert s.records[zoneId][i] in s.records[zoneId];
    }
  }

  lemma UpdateBack<K, V>(m: map<K, V>, k: K, v: V)
    requires k in m
    ensures m[k := v][k := m[k]] == m
  {
  }

  /**
   * Idempotence needs the record search to be answered 200. When the search
   * alone is refused with a non-200 status, the lookup finds none however
   * many records have the content, so each identical add inserts one more
   * record with the same name and value parts.
   */
  lemma AddRepeatsOnRefusedSearch(s: Store, domain: string, recordName: string, content: string, ttl: int, code: ErrorStatus)
    requires Valid(s) && ZoneWalk(s, Candidates(domain, recordName)).value.Some?
    requires var zone := ZoneWalk(s, Candidates(domain, recordName)).value.value;
      s.faults == map[RecordSearchRequest(zone.id, RelativeName(recordName, zone.name)) := Status(code)]
    ensures ZoneWalk(s, Candidates(domain, recordName)).value.value.id in s.records
    ensures var zone := ZoneWalk(s, Candidates(domain, recordName)).value.value;
      var first := AddTxt(s, domain, recordName, content, ttl);
      var second := AddTxt(first.after, domain, recordName, content, ttl);
      var n := |s.records[zone.id]|;
      first.outcome == Pass && second.outcome == Pass && second.after != first.after &&
      zone.id in second.after.records &&
      |second.after.records[zone.id]| == n + 2 && second.after.records[zone.id][..n] == s.records[zone.id] &&
      second.after.records[zone.id][n].name == second.after.records[zone.id][n + 1].name &&
      second.after.records[zone.id][n].values == second.after.records[zone.id][n + 1].values &&
      second.after.records[zone.id][n].id != second.after.records[zone.id][n + 1].id
  {
    var cands := Candidates(domain, recordName);
    var zone := ZoneWalk(s, cands).value.value;
    ZoneWalkResolvesKnownZone(s, cands);
    var name := RelativeName(recordName, zone.name);
    var body := PrepareData(name, content, ttl);
    var recs := s.records[zone.id];
    assert SearchRecordsAnswer(s, zone.id, name) == Refused(code);
    assert ExistingTxt(s, zone.id, name, content).value == Success(None);
    assert InsertAnswer(s, zone.id, body) == Ok(NewRecord(s, body));
    var s1 := AfterInsert(s, zone.id, body);
    assert s1.records[zone.id] == recs + [NewRecord(s, body)];
    ZoneWalkSameZones(s, s1, cands);
    assert SearchRecordsAnswer(s1, zone.id, name) == Refused(code);
    assert ExistingTxt(s1, zone.id, name, content).value == Success(None);
    assert InsertAnswer(s1, zone.id, body) == Ok(NewRecord(s1, body));
    var s2 := AfterInsert(s1, zone.id, body);
    assert s2.records[zone.id] == recs + [NewRecord(s, body)] + [NewRecord(s1, body)];
    assert s2.records[zone.id][..|recs|] == recs;
  }

  /** Deleting the record an insert has just added gives back the records as they were. */
  lemma DeleteUndoesInsert(s: Store, zoneId: nat, body: Body)
    requires InsertAnswer(s, zoneId, body).Ok?
    requires forall i :: 0 <= i < |s.records[zoneId]| ==> s.records[zoneId][i].id < s.nextId
    requires DeleteRequest(zoneId, NewRecord(s, body).id) !in s.faults
    ensures var s1 := AfterInsert(s, zoneId, body);
      DeleteAnswer(s1, zoneId, NewRecord(s, body).id) == Ok(()) &&
      AfterDelete(s1, zoneId, NewRecord(s, body).id).records == s.records
  {
    var added := NewRecord(s, body);
    var recs := s.records[zoneId];
    var s1 := AfterInsert(s, zoneId, body);
    assert s1.records[zoneId] == recs + [added];
    FindByIdAppend(recs, added, added.id);
    WithoutAppendedId(recs, added);
    assert DeleteAnswer(s1, zoneId, added.id) == Ok(());
    assert AfterDelete(s1, zoneId, added.id).records == s.records[zoneId := recs + [added]][zoneId := recs];
    UpdateBack(s.records, zoneId, recs + [added]);
  }

  /**
   * Deleting undoes adding: on a valid store that answers every request and
   * holds no record with the content, an add followed by a delete of the
   * same content leaves the zones and records exactly as they were (only
   * the provider's id counter has moved on).
   */
  lemma AddThenDelRestores(s: Store, domain: string, recordName: string, content: string, ttl: int)
    requires Valid(s) && s.faults == map[] && NoEdgeQuote(content)
    requires forall zoneId, rec :: zoneId in s.records && rec in s.records[zoneId] ==> FullContent(rec.values) != content
    ensures var added := AddTxt(s, domain, recordName, content, ttl);
      var deleted := DelTxt(added.after, domain, recordName, content, ttl);
      deleted.outcome == added.outcome &&
      deleted.after.records == s.records && deleted.after.zones == s.zones
  {
    var cands := Candidates(domain, recordName);
    var walk := ZoneWalk(s, cands);
    var added := AddTxt(s, domain, recordName, content, ttl);
    if walk.value.Some? {
      var zone := walk.value.value;
      ZoneWalkResolvesKnownZone(s, cands);
      var name := RelativeName(recordName, zone.name);
      var recs := s.records[zone.id];
      assert SearchRecordsAnswer(s, zone.id, name) == Ok(IdsNamed(recs, name));
      MatchWalkNoFaults(s, zone.id, IdsNamed(recs, name), content);
      ExistingTxtSound(s, zone.id, name, content);
      var body := PrepareData(name, content, ttl);
      LookupFindsInserted(s, zone.id, name, content, ttl);
      var s1 := AfterInsert(s, zone.id, body);
      assert added.after == s1 && added.outcome == Pass;
      ZoneWalkSameZones(s, s1, cands);
      StoredIdsBelow(s, zone.id);
      DeleteUndoesInsert(s, zone.id, body);
    }
  }

  // ---------------------------------------------------------------------
  // An example
  // ---------------------------------------------------------------------

  /**
   * The usual case: on an account that answers every request, has no zone
   * named after the challenge record itself and has a zone named after the
   * domain, the walk finds that zone on the second search.
   */
  lemma ZoneAtDomain(s: Store, domain: string, recordName: string)
    requires s.faults == map[]
    requires forall z :: z in s.zones ==> z.name != recordName
    requires exists z :: z in s.zones && z.name == domain
    ensures var walk := ZoneWalk(s, Candidates(domain, recordName));
      walk.value == Some(ZonesNamed(s.zones, domain)[0]) &&
      walk.sent == [ZoneSearchRequest(recordName), ZoneSearchRequest(domain)]
  {
    var cands := Candidates(domain, recordName);
    assert cands[0] == recordName && cands[1] == domain;
    assert cands[..2] == [recordName, domain];
    assert !Hit(s, cands[0]);
    ZoneWalkFirstHit(s, cands, 1);
  }

  /** The challenge record `_acme-challenge.example.com` in the zone `example.com` is named `_acme-challenge`. */
  lemma ChallengeNameExample()
    ensures RelativeName("_acme-challenge.example.com", "example.com") == "_acme-challenge"
  {
    var zone := "example.com";
    var p := "_acme-challenge";
    var name := p + "." + zone;
    assert name == "_acme-challenge.example.com";
    forall i | 0 <= i <= |p|
      ensures !OccursAt(name, zone, i)
    {
      assert name[i + 1] != 'x';
      assert name[i..i + |zone|][1] == name[i + 1];
    }
    RelativeNameOfChild(p, zone);
  }
}

=== FILE: provider.dfy ===
/**
 * The provider side of the API, as an abstract store: the zones of the
 * account, the TXT records of each zone, the next record id, and the
 * requests the provider fails to answer properly. `DnsProvider` holds that
 * state and answers the client's requests one at a time, keeping a log of
 * every request it receives.
 */
module Provider {
  import opened Wrappers
  import opened Text
  import opened Api

  datatype Zone = Zone(id: nat, name: string)

  /** A stored TXT record; `values` are the value parts as the provider returns them. */
  datatype TxtRecord = TxtRecord(id: nat, name: string, ttl: int, values: seq<string>)

  /** Any HTTP status other than 200. */
  type ErrorStatus = c: int | c != 200 witness 404

  const BadRequest: ErrorStatus := 400
  const NotFound: ErrorStatus := 404

  /**
   * How a request can go wrong: a body that is not JSON (the client raises
   * "API response unknown"), or a JSON error document with a non-200 status.
   * Exceptions of the HTTP transport itself are outside the model.
   */
  datatype Fault = Garbled(text: string) | Status(code: ErrorStatus)

  /** A response: unreadable, a non-200 status, or status 200 with its body. */
  datatype Response<+T> = Unreadable(text: string) | Refused(status: ErrorStatus) | Ok(body: T)

  datatype Store = Store(
    zones: seq<Zone>,
    records: map<nat, seq<TxtRecord>>,
    nextId: nat,
    faults: map<Request, Fault>)

  /**
   * Every zone has a record list, every stored record id is below the next
   * id, and no two different records of a zone share an id.
   */
  ghost predicate Valid(s: Store) {
    (forall z :: z in s.zones ==> z.id in s.records) &&
    (forall zoneId, rec :: zoneId in s.records && rec in s.records[zoneId] ==> rec.id < s.nextId) &&
    (forall zoneId, a, b :: zoneId in s.records && a in s.records[zoneId] && b in s.records[zoneId] && a.id == b.id ==> a == b)
  }

  function Faulted<T>(f: Fault): Response<T> {
    match f
    case Garbled(text) => Unreadable(text)
    case Status(code) => Refused(code)
  }

  /** The zones called `name`, in the provider's order. */
  function ZonesNamed(zones: seq<Zone>, name: string): (r: seq<Zone>)
    ensures |r| > 0 <==> exists z :: z in zones && z.name == name
    ensures |r| > 0 ==> r[0] in zones && r[0].name == name
  {
    if zones == [] then []
    else if zones[0].name == name then [zones[0]] + ZonesNamed(zones[1..], name)
    else ZonesNamed(zones[1..], name)
  }

  /** The ids of the records called `name`, in storage order. */
  function IdsNamed(recs: seq<TxtRecord>, name: string): (r: seq<nat>)
    ensures forall id :: id in r ==> exists rec :: rec in recs && rec.id == id && rec.name == name
  {
    if recs == [] then []
    else
      var last := recs[|recs| - 1];
      IdsNamed(recs[..|recs| - 1], name) + (if last.name == name then [last.id] else [])
  }

  /** The first record with the given id. */
  function FindById(recs: seq<TxtRecord>, id: nat): (r: Option<TxtRecord>)
    ensures r.Some? ==> r.value in recs && r.value.id == id
    ensures r.None? ==> forall rec :: rec in recs ==> rec.id != id
  {
    if recs == [] then None
    else if recs[0].id == id then Some(recs[0])
    else FindById(recs[1..], id)
  }

  /** The records whose id differs from `id`, in storage order. */
  function WithoutId(recs: seq<TxtRecord>, id: nat): (r: seq<TxtRecord>)
    ensures forall rec :: rec in r <==> rec in recs && rec.id != id
  {
    if recs == [] then []
    else
      var last := recs[|recs| - 1];
      WithoutId(recs[..|recs| - 1], id) + (if last.id == id then [] else [last])
  }

  /** The value parts the provider stores for a round-robin list: each one quoted. */
  function QuoteAll(values: seq<string>): seq<string> {
    seq(|values|, i requires 0 <= i < |values| => Quote(values[i]))
  }

  // The answer to each request, and the state it leaves behind.

  /** `GET domains/search?exact={name}`. */
  function SearchZonesAnswer(s: Store, name: string): Response<seq<Zone>> {
    var req := ZoneSearchRequest(name);
    if req in s.faults then Faulted(s.faults[req]) else Ok(ZonesNamed(s.zones, name))
  }

  /** `GET domains/{zone}/records/txt/search?exact={name}`: the ids of the matches. */
  function SearchRecordsAnswer(s: Store, zoneId: nat, name: string): Response<seq<nat>> {
    var req := RecordSearchRequest(zoneId, name);
    if req in s.faults then Faulted(s.faults[req])
    else if zoneId in s.records then Ok(IdsNamed(s.records[zoneId], name))
    else Refused(NotFound)
  }

  /** `GET domains/{zone}/records/txt/{id}`. */
  function GetRecordAnswer(s: Store, zoneId: nat, recordId: nat): Response<TxtRecord> {
    var req := RecordGetRequest(zoneId, recordId);
    if req in s.faults then Faulted(s.faults[req])
    else if zoneId in s.records && FindById(s.records[zoneId], recordId).Some? then
      Ok(FindById(s.records[zoneId], recordId).value)
    else Refused(NotFound)
  }

  /** The record a create request with this payload would store. */
  function NewRecord(s: Store, body: Body): TxtRecord
    requires body.RecordData?
  {
    TxtRecord(s.nextId, body.name, body.ttl, QuoteAll(body.roundRobin))
  }

  /** `POST domains/{zone}/records/txt`. */
  function InsertAnswer(s: Store, zoneId: nat, body: Body): Response<TxtRecord> {
    var req := InsertRequest(zoneId, body);
    if req in s.faults then Faulted(s.faults[req])
    else if zoneId !in s.records then Refused(NotFound)
    else if !body.RecordData? then Refused(BadRequest)
    else Ok(NewRecord(s, body))
  }

  function AfterInsert(s: Store, zoneId: nat, body: Body): Store {
    if InsertAnswer(s, zoneId, body).Ok? then
      s.(records := s.records[zoneId := s.records[zoneId] + [NewRecord(s, body)]],
         nextId := s.nextId + 1)
    else s
  }

  /** `DELETE domains/{zone}/records/txt/{id}`. */
  function DeleteAnswer(s: Store, zoneId: nat, recordId: nat): Response<()> {
    var req := DeleteRequest(zoneId, recordId);
    if req in s.faults then Faulted(s.faults[req])
    else if zoneId in s.records && FindById(s.records[zoneId], recordId).Some? then Ok(())
    else Refused(NotFound)
  }

  function AfterDelete(s: Store, zoneId: nat, recordId: nat): Store {
    if DeleteAnswer(s, zoneId, recordId).Ok? then
      s.(records := s.records[zoneId := WithoutId(s.records[zoneId], recordId)])
    else s
  }

  /** The provider account the client talks to. */
  class DnsProvider {
    const zones: seq<Zone>
    const faults: map<Request, Fault>
    var records: map<nat, seq<TxtRecord>>
    var nextId: nat
    /** Every request received, oldest first. */
    var log: seq<Request>

    function State(): Store
      reads this
    {
      Store(zones, records, nextId, faults)
    }

    constructor (initial: Store)
      ensures State() == initial && log == []
    {
      zones := initial.zones;
      faults := initial.faults;
      records := initial.records;
      nextId := initial.nextId;
      log := [];
    }

    method SearchZones(name: string) returns (r: Response<seq<Zone>>)
      modifies this`log
      ensures r == SearchZonesAnswer(State(), name)
      ensures State() == old(State()) && log == old(log) + [ZoneSearchRequest(name)]
    {
      log := log + [ZoneSearchRequest(name)];
      r := SearchZonesAnswer(State(), name);
    }

    method SearchRecords(zoneId: nat, name: string) returns (r: Response<seq<nat>>)
      modifies this`log
      ensures r == SearchRecordsAnswer(State(), zoneId, name)
      ensures State() == old(State()) && log == old(log) + [RecordSearchRequest(zoneId, name)]
    {
      log := log + [RecordSearchRequest(zoneId, name)];
      r := SearchRecordsAnswer(State(), zoneId, name);
    }

    method GetRecord(zoneId: nat, recordId: nat) returns (r: Response<TxtRecord>)
      modifies this`log
      ensures r == GetRecordAnswer(State(), zoneId, recordId)
      ensures State() == old(State()) && log == old(log) + [RecordGetRequest(zoneId, recordId)]
    {
      log := log + [RecordGetRequest(zoneId, recordId)];
      r := GetRecordAnswer(State(), zoneId, recordId);
    }

    method Insert(zoneId: nat, body: Body) returns (r: Response<TxtRecord>)
      modifies this`log, this`records, this`nextId
      ensures r == InsertAnswer(old(State()), zoneId, body)
      ensures State() == AfterInsert(old(State()), zoneId, body)
      ensures log == old(log) + [InsertRequest(zoneId, body)]
    {
      log := log + [InsertRequest(zoneId, body)];
      r := InsertAnswer(State(), zoneId, body);
      if r.Ok? {
        records := records[zoneId := records[zoneId] + [NewRecord(State(), body)]];
        nextId := nextId + 1;
      }
    }

    method Delete(zoneId: nat, recordId: nat) returns (r: Response<()>)
      modifies this`log, this`records
      ensures r == DeleteAnswer(old(State()), zoneId, recordId)
      ensures State() == AfterDelete(old(State()), zoneId, recordId)
      ensures log == old(log) + [DeleteRequest(zoneId, recordId)]
    {
      log := log + [DeleteRequest(zoneId, recordId)];
      r := DeleteAnswer(State(), zoneId, recordId);
      if r.Ok? {
        records := records[zoneId := WithoutId(records[zoneId], recordId)];
      }
    }
  }
}

=== FILE: reconcile.dfy ===
/**
 * What the Constellix client does to the provider, as functions of the
 * provider's state: the zone-resolution walk, the search for a TXT record
 * with the wanted content, and the add and delete operations built from
 * them. Each function gives the value the client computes, the requests it
 * sends (in order) and, for the operations that write, the provider state
 * they leave behind. The lemmas state what the client promises.
 */
module Reconcile {
  import opened Wrappers
  import opened Text
  import opened Api
  import opened Provider

  /** The errors the client raises. */
  datatype Error =
    | DomainNotKnown               // PluginError("Domain not known")
    | ApiResponseUnknown(text: string) // PluginError("API response unknown ..."): body not JSON
    | MissingKey(key: string)      // KeyError on a response that lacks the key
    | CannotUnpackNone             // TypeError unpacking a bare None

  /** A read-only step: its value and the requests it sent. */
  datatype Lookup<+T> = Lookup(value: T, sent: seq<Request>)

  /** A step that may write: its outcome, the requests it sent, the provider state after it. */
  datatype Run = Run(outcome: Outcome<Error>, sent: seq<Request>, after: Store)

  // ---------------------------------------------------------------------
  // Zone resolution (`_find_managed_zone_id`)
  // ---------------------------------------------------------------------

  /** The zone names tried, in order: the record name, then the domain's guesses. */
  function Candidates(domain: string, recordName: string): seq<string> {
    [recordName] + BaseDomainNameGuesses(domain)
  }

  /** The zone search for `name` answers 200 with at least one zone. */
  predicate Hit(s: Store, name: string) {
    var answer := SearchZonesAnswer(s, name);
    answer.Ok? && |answer.body| > 0
  }

  function ZoneSearches(names: seq<string>): seq<Request> {
    if names == [] then [] else [ZoneSearchRequest(names[0])] + ZoneSearches(names[1..])
  }

  lemma {:induction false} ZoneSearchesSnoc(names: seq<string>, name: string)
    ensures ZoneSearches(names + [name]) == ZoneSearches(names) + [ZoneSearchRequest(name)]
    decreases |names|
  {
    if names == [] {
      assert names + [name] == [name];
    } else {
      assert (names + [name])[1..] == names[1..] + [name];
      ZoneSearchesSnoc(names[1..], name);
    }
  }

  /**
   * The walk over the candidates: the first element of the first answer
   * that is 200 and non-empty; an error or an empty answer moves on to the
   * next candidate.
   */
  function ZoneWalk(s: Store, cands: seq<string>): Lookup<Option<Zone>> {
    if cands == [] then Lookup(None, [])
    else if Hit(s, cands[0]) then
      Lookup(Some(SearchZonesAnswer(s, cands[0]).body[0]), [ZoneSearchRequest(cands[0])])
    else
      var rest := ZoneWalk(s, cands[1..]);
      Lookup(rest.value, [ZoneSearchRequest(cands[0])] + rest.sent)
  }

  /**
   * The walk returns the first zone of the first candidate that hits, after
   * querying exactly the candidates up to that one, whatever went wrong
   * with the earlier ones.
   */
  lemma {:induction false} ZoneWalkFirstHit(s: Store, cands: seq<string>, i: nat)
    requires i < |cands| && Hit(s, cands[i])
    requires forall j :: 0 <= j < i ==> !Hit(s, cands[j])
    ensures ZoneWalk(s, cands).value == Some(SearchZonesAnswer(s, cands[i]).body[0])
    ensures ZoneWalk(s, cands).sent == ZoneSearches(cands[..i + 1])
    decreases i
  {
    if i == 0 {
      assert cands[..1] == [cands[0]];
    } else {
      assert !Hit(s, cands[0]);
      ZoneWalkFirstHit(s, cands[1..], i - 1);
      assert cands[1..][..i] == cands[..i + 1][1..];
    }
  }

  /** When no candidate hits, the walk finds nothing after querying every candidate. */
  lemma {:induction false} ZoneWalkMisses(s: Store, cands: seq<string>)
    requires forall j :: 0 <= j < |cands| ==> !Hit(s, cands[j])
    ensures ZoneWalk(s, cands) == Lookup(None, ZoneSearches(cands))
    decreases |cands|
  {
    if cands != [] {
      ZoneWalkMisses(s, cands[1..]);
    }
  }

  /** "Not found" exactly when no candidate hits. */
  lemma {:induction false} ZoneWalkNotFound(s: Store, cands: seq<string>)
    ensures ZoneWalk(s, cands).value == None <==> forall j :: 0 <= j < |cands| ==> !Hit(s, cands[j])
    decreases |cands|
  {
    if cands != [] {
      ZoneWalkNotFound(s, cands[1..]);
      if !Hit(s, cands[0]) {
        forall j | 0 < j < |cands|
          ensures Hit(s, cands[j]) == Hit(s, cands[1..][j - 1])
        {
        }
      }
    }
  }

  /** A resolved zone is one of the provider's zones, named after a candidate. */
  lemma {:induction false} ZoneWalkResolvesKnownZone(s: Store, cands: seq<string>)
    ensures ZoneWalk(s, cands).value.Some? ==>
      ZoneWalk(s, cands).value.value in s.zones && ZoneWalk(s, cands).value.value.name in cands
    decreases |cands|
  {
    if cands != [] && !Hit(s, cands[0]) {
      ZoneWalkResolvesKnownZone(s, cands[1..]);
    }
  }

  // ---------------------------------------------------------------------
  // Content matching (`get_existing_txt`)
  // ---------------------------------------------------------------------

  function Fetches(zoneId: nat, ids: seq<nat>): seq<Request> {
    if ids == [] then [] else [RecordGetRequest(zoneId, ids[0])] + Fetches(zoneId, ids[1..])
  }

  lemma {:induction false} FetchesSnoc(zoneId: nat, ids: seq<nat>, id: nat)
    ensures Fetches(zoneId, ids + [id]) == Fetches(zoneId, ids) + [RecordGetRequest(zoneId, id)]
    decreases |ids|
  {
    if ids == [] {
      assert ids + [id] == [id];
    } else {
      assert (ids + [id])[1..] == ids[1..] + [id];
      FetchesSnoc(zoneId, ids[1..], id);
    }
  }

  /** The error raised on a record fetch that did not answer 200. */
  function FetchError<T>(r: Response<T>): Error
    requires !r.Ok?
  {
    match r
    case Unreadable(text) => ApiResponseUnknown(text)
    case Refused(_) => MissingKey("value")
  }

  /** The fetch of `id` answers 200 with a record whose content is not `content`. */
  predicate Passes(s: Store, zoneId: nat, id: nat, content: string) {
    var answer := GetRecordAnswer(s, zoneId, id);
    answer.Ok? && FullContent(answer.body.values) != content
  }

  /** The fetch of `id` answers 200 with a record whose content is `content`. */
  predicate Matches(s: Store, zoneId: nat, id: nat, content: string) {
    var answer := GetRecordAnswer(s, zoneId, id);
    answer.Ok? && FullContent(answer.body.values) == content
  }

  /** Fetch the records in search order until one has the wanted content. */
  function MatchWalk(s: Store, zoneId: nat, ids: seq<nat>, content: string): Lookup<Result<Option<TxtRecord>, Error>> {
    if ids == [] then Lookup(Success(None), [])
    else
      var req := RecordGetRequest(zoneId, ids[0]);
      var answer := GetRecordAnswer(s, zoneId, ids[0]);
      if !answer.Ok? then Lookup(Failure(FetchError(answer)), [req])
      else if FullContent(answer.body.values) == content then Lookup(Success(Some(answer.body)), [req])
      else
        var rest := MatchWalk(s, zoneId, ids[1..], content);
        Lookup(rest.value, [req] + rest.sent)
  }

  /** Past a record that answers without the content, the search goes on with the next one. */
  lemma MatchWalkPast(s: Store, zoneId: nat, ids: seq<nat>, content: string)
    requires ids != [] && Passes(s, zoneId, ids[0], content)
    ensures var rest := MatchWalk(s, zoneId, ids[1..], content);
      MatchWalk(s, zoneId, ids, content) == Lookup(rest.value, [RecordGetRequest(zoneId, ids[0])] + rest.sent)
  {
  }

  /** The records up to `k` that all pass, seen from the second record on. */
  lemma PassesTail(s: Store, zoneId: nat, ids: seq<nat>, content: string, k: nat)
    requires 0 < k <= |ids|
    requires forall j :: 0 <= j < k ==> Passes(s, zoneId, ids[j], content)
    ensures Passes(s, zoneId, ids[0], content)
    ensures forall j :: 0 <= j < k - 1 ==> Passes(s, zoneId, ids[1..][j], content)
  {
    forall j | 0 <= j < k - 1
      ensures Passes(s, zoneId, ids[1..][j], content)
    {
      assert ids[1..][j] == ids[j + 1];
    }
  }

  /** The fetches of the first `k + 1` records: the first one, then the next `k`. */
  lemma FetchesPrefix(zoneId: nat, ids: seq<nat>, k: nat)
    requires k < |ids|
    ensures Fetches(zoneId, ids[..k + 1]) == [RecordGetRequest(zoneId, ids[0])] + Fetches(zoneId, ids[1..][..k])
  {
    assert ids[..k + 1][1..] == ids[1..][..k];
  }

  /** The first record whose content matches is returned, after fetching exactly the records before it. */
  lemma {:induction false} MatchWalkFound(s: Store, zoneId: nat, ids: seq<nat>, content: string, k: nat)
    requires k < |ids| && Matches(s, zoneId, ids[k], content)
    requires forall j :: 0 <= j < k ==> Passes(s, zoneId, ids[j], content)
    ensures MatchWalk(s, zoneId, ids, content) ==
      Lookup(Success(Some(GetRecordAnswer(s, zoneId, ids[k]).body)), Fetches(zoneId, ids[..k + 1]))
    decreases k
  {
    if k == 0 {
      assert ids[..1] == [ids[0]];
    } else {
      PassesTail(s, zoneId, ids, content, k);
      assert ids[1..][k - 1] == ids[k];
      MatchWalkFound(s, zoneId, ids[1..], content, k - 1);
      MatchWalkPast(s, zoneId, ids, content);
      FetchesPrefix(zoneId, ids, k);
    }
  }

  /** A failed fetch before any match ends the search with that error. */
  lemma {:induction false} MatchWalkFails(s: Store, zoneId: nat, ids: seq<nat>, content: string, k: nat)
    requires k < |ids| && !GetRecordAnswer(s, zoneId, ids[k]).Ok?
    requires forall j :: 0 <= j < k ==> Passes(s, zoneId, ids[j], content)
    ensures MatchWalk(s, zoneId, ids, content) ==
      Lookup(Failure(FetchError(GetRecordAnswer(s, zoneId, ids[k]))), Fetches(zoneId, ids[..k + 1]))
    decreases k
  {
    if k == 0 {
      assert ids[..1] == [ids[0]];
    } else {
      PassesTail(s, zoneId, ids, content, k);
      assert ids[1..][k - 1] == ids[k];
      MatchWalkFails(s, zoneId, ids[1..], content, k - 1);
      MatchWalkPast(s, zoneId, ids, content);
      FetchesPrefix(zoneId, ids, k);
    }
  }

  /** When every record is fetched and none matches, the search finds nothing. */
  lemma {:induction false} MatchWalkNone(s: Store, zoneId: nat, ids: seq<nat>, content: string)
    requires forall j :: 0 <= j < |ids| ==> Passes(s, zoneId, ids[j], content)
    ensures MatchWalk(s, zoneId, ids, content) == Lookup(Success(None), Fetches(zoneId, ids))
    decreases |ids|
  {
    if ids != [] {
      PassesTail(s, zoneId, ids, content, |ids|);
      MatchWalkNone(s, zoneId, ids[1..], content);
      MatchWalkPast(s, zoneId, ids, content);
    }
  }

  /** Search the records named `name`, then fetch them in order looking for `content`. */
  function ExistingTxt(s: Store, zoneId: nat, name: string, content: string): Lookup<Result<Option<TxtRecord>, Error>> {
    var req := RecordSearchRequest(zoneId, name);
    match SearchRecordsAnswer(s, zoneId, name)
    case Unreadable(text) => Lookup(Failure(ApiResponseUnknown(text)), [req])
    case Refused(_) => Lookup(Success(None), [req])
    case Ok(ids) =>
      var walk := MatchWalk(s, zoneId, ids, content);
      Lookup(walk.value, [req] + walk.sent)
  }

  /** With a 200 search answer, the lookup is the search followed by the walk over its ids. */
  lemma ExistingTxtSearched(s: Store, zoneId: nat, name: string, content: string)
    requires SearchRecordsAnswer(s, zoneId, name).Ok?
    ensures var walk := MatchWalk(s, zoneId, SearchRecordsAnswer(s, zoneId, name).body, content);
      ExistingTxt(s, zoneId, name, content) == Lookup(walk.value, [RecordSearchRequest(zoneId, name)] + walk.sent)
  {
  }

  // ---------------------------------------------------------------------
  // Writes (`_insert_txt_record`, `_delete_txt_record`)
  // ---------------------------------------------------------------------

  /** POST the prepared payload; only an unreadable answer is an error, the status is not looked at. */
  function InsertTxt(s: Store, zoneId: nat, name: string, content: string, ttl: int): Run {
    var body := PrepareData(name, content, ttl);
    var outcome := match InsertAnswer(s, zoneId, body)
      case Unreadable(text) => Fail(ApiResponseUnknown(text))
      case _ => Pass;
    Run(outcome, [InsertRequest(zoneId, body)], AfterInsert(s, zoneId, body))
  }

  /** DELETE the record by id; only an unreadable answer is an error. */
  function DeleteTxt(s: Store, zoneId: nat, recordId: nat): Run {
    var outcome := match DeleteAnswer(s, zoneId, recordId)
      case Unreadable(text) => Fail(ApiResponseUnknown(text))
      case _ => Pass;
    Run(outcome, [DeleteRequest(zoneId, recordId)], AfterDelete(s, zoneId, recordId))
  }

  // ---------------------------------------------------------------------
  // The two operations (`add_txt_record`, `del_txt_record`)
  // ---------------------------------------------------------------------

  /** Resolve the zone, look for a record with the content, and insert one only if there is none. */
  function AddTxt(s: Store, domain: string, recordName: string, content: string, ttl: int): Run {
    var walk := ZoneWalk(s, Candidates(domain, recordName));
    match walk.value
    case None => Run(Fail(DomainNotKnown), walk.sent, s)
    case Some(zone) =>
      var name := RelativeName(recordName, zone.name);
      var found := ExistingTxt(s, zone.id, name, content);
      match found.value
      case Failure(e) => Run(Fail(e), walk.sent + found.sent, s)
      case Success(Some(_)) => Run(Pass, walk.sent + found.sent, s)
      case Success(None) =>
        var insert := InsertTxt(s, zone.id, name, content, ttl);
        Run(insert.outcome, walk.sent + found.sent + insert.sent, insert.after)
  }

  /** Resolve the zone, look for a record with the content, and delete it by id if there is one. */
  function DelTxt(s: Store, domain: string, recordName: string, content: string, ttl: int): Run {
    var walk := ZoneWalk(s, Candidates(domain, recordName));
    match walk.value
    case None => Run(Fail(DomainNotKnown), walk.sent, s)
    case Some(zone) =>
      var name := RelativeName(recordName, zone.name);
      var found := ExistingTxt(s, zone.id, name, content);
      match found.value
      case Failure(e) => Run(Fail(e), walk.sent + found.sent, s)
      case Success(None) => Run(Pass, walk.sent + found.sent, s)
      case Success(Some(record)) =>
        var delete := DeleteTxt(s, zone.id, record.id);
        Run(delete.outcome, walk.sent + found.sent + delete.sent, delete.after)
  }
}

=== FILE: text.dfy ===
/**
 * String manipulation used by the Constellix client: the zone-name guesses
 * for a domain, the quote stripping and concatenation that give a stored
 * TXT record its full content, the relative-name expression
 * `record_name.replace(zone_name, "")[:-1]`, and the decimal rendering of
 * numeric ids inside request paths.
 */
module Text {

  // ---------------------------------------------------------------------
  // Zone-name guesses
  // ---------------------------------------------------------------------

  /** Index of the first `c` in `s`, or `|s|` when there is none. */
  function IndexOf(s: string, c: char): (k: nat)
    ensures k <= |s|
    ensures k < |s| ==> s[k] == c
    ensures forall i :: 0 <= i < k ==> s[i] != c
  {
    if s == [] || s[0] == c then 0 else 1 + IndexOf(s[1..], c)
  }

  function FirstDot(s: string): nat {
    IndexOf(s, '.')
  }

  /**
   * The candidate zone names for `domain`: the domain itself, then the
   * domain with its first label removed, and so on down to the last label
   * (`'.'.join(domain.split('.')[i:])` for every `i`).
   */
  function BaseDomainNameGuesses(domain: string): (guesses: seq<string>)
    decreases |domain|
  {
    var k := FirstDot(domain);
    if k == |domain| then [domain] else [domain] + BaseDomainNameGuesses(domain[k + 1..])
  }

  predicate IsSuffix(t: string, s: string) {
    |t| <= |s| && s[|s| - |t|..] == t
  }

  /**
   * The guesses start with the domain, each one after the first is its
   * predecessor without its first label, and the last one holds no dot.
   */
  lemma {:induction false} GuessesWalkUpLabels(domain: string)
    ensures var g := BaseDomainNameGuesses(domain);
      |g| >= 1 && g[0] == domain && '.' !in g[|g| - 1] &&
      (forall i :: 0 <= i < |g| - 1 ==>
         FirstDot(g[i]) < |g[i]| && g[i + 1] == g[i][FirstDot(g[i]) + 1..])
    decreases |domain|
  {
    var g := BaseDomainNameGuesses(domain);
    var k := FirstDot(domain);
    if k == |domain| {
      assert forall c :: c in domain ==> c != '.';
    } else {
      var h := BaseDomainNameGuesses(domain[k + 1..]);
      GuessesWalkUpLabels(domain[k + 1..]);
      assert g == [domain] + h;
      forall i | 0 <= i < |g| - 1
        ensures FirstDot(g[i]) < |g[i]| && g[i + 1] == g[i][FirstDot(g[i]) + 1..]
      {
        if i > 0 {
          assert g[i + 1] == h[i] && g[i] == h[i - 1];
        }
      }
    }
  }

  /** A suffix of the text after position `k` is a suffix of the whole text. */
  lemma SuffixOfTail(t: string, domain: string, k: nat)
    requires k < |domain| && IsSuffix(t, domain[k + 1..])
    ensures IsSuffix(t, domain)
  {
    var rest := domain[k + 1..];
    assert domain[|domain| - |t|..] == rest[|rest| - |t|..];
  }

  /** Every guess is a suffix of the domain. */
  lemma {:induction false} GuessesAreSuffixes(domain: string)
    ensures forall t :: t in BaseDomainNameGuesses(domain) ==> IsSuffix(t, domain)
    decreases |domain|
  {
    var g := BaseDomainNameGuesses(domain);
    var k := FirstDot(domain);
    if k < |domain| {
      var h := BaseDomainNameGuesses(domain[k + 1..]);
      GuessesAreSuffixes(domain[k + 1..]);
      assert g == [domain] + h;
      forall t | t in g
        ensures IsSuffix(t, domain)
      {
        if t != domain {
          SuffixOfTail(t, domain, k);
        }
      }
    }
  }

  // ---------------------------------------------------------------------
  // Quote stripping: Python's `value.strip('"')`
  // ---------------------------------------------------------------------

  predicate AllQuotes(s: string) {
    forall i :: 0 <= i < |s| ==> s[i] == '"'
  }

  /** True when `s` neither starts nor ends with a `"` character. */
  predicate NoEdgeQuote(s: string) {
    s == [] || (s[0] != '"' && s[|s| - 1] != '"')
  }

  function TrimLeadingQuotes(s: string): (r: string)
    ensures |r| <= |s| && r == s[|s| - |r|..]
    ensures r == [] || r[0] != '"'
  {
    if s != [] && s[0] == '"' then TrimLeadingQuotes(s[1..]) else s
  }

  function TrimTrailingQuotes(s: string): (r: string)
    ensures |r| <= |s| && r == s[..|r|]
    ensures r == [] || r[|r| - 1] != '"'
  {
    if s != [] && s[|s| - 1] == '"' then TrimTrailingQuotes(s[..|s| - 1]) else s
  }

  /** All leading and all trailing `"` characters removed; interior ones kept. */
  function StripQuotes(s: string): (r: string)
    ensures |r| <= |s|
    ensures NoEdgeQuote(r)
  {
    TrimTrailingQuotes(TrimLeadingQuotes(s))
  }

  lemma {:induction false} TrimLeadingOfPadded(q: string, c: string)
    requires AllQuotes(q)
    requires c == [] || c[0] != '"'
    ensures TrimLeadingQuotes(q + c) == c
    decreases |q|
  {
    if q == [] {
      assert q + c == c;
    } else {
      assert (q + c)[1..] == q[1..] + c;
      TrimLeadingOfPadded(q[1..], c);
    }
  }

  lemma {:induction false} TrimTrailingOfPadded(c: string, q: string)
    requires AllQuotes(q)
    requires c == [] || c[|c| - 1] != '"'
    ensures TrimTrailingQuotes(c + q) == c
    decreases |q|
  {
    if q == [] {
      assert c + q == c;
    } else {
      assert (c + q)[..|c + q| - 1] == c + q[..|q| - 1];
      TrimTrailingOfPadded(c, q[..|q| - 1]);
    }
  }

  /**
   * Stripping removes exactly the quotes around a value that does not
   * itself start or end with a quote, and keeps the value intact.
   */
  lemma StripQuotesOfPadded(q1: string, c: string, q2: string)
    requires AllQuotes(q1) && AllQuotes(q2) && NoEdgeQuote(c)
    ensures StripQuotes(q1 + c + q2) == c
  {
    if c == [] {
      assert q1 + c + q2 == q1 + q2;
      assert AllQuotes(q1 + q2);
      TrimLeadingOfPadded(q1 + q2, []);
      assert q1 + q2 + [] == q1 + q2;
    } else {
      assert q1 + c + q2 == q1 + (c + q2);
      TrimLeadingOfPadded(q1, c + q2);
      TrimTrailingOfPadded(c, q2);
    }
  }

  /** The value as the provider hands it back: wrapped in double quotes. */
  function Quote(s: string): string {
    ['"'] + s + ['"']
  }

  lemma StripQuotesOfQuote(c: string)
    requires NoEdgeQuote(c)
    ensures StripQuotes(Quote(c)) == c
  {
    StripQuotesOfPadded(['"'], c, ['"']);
  }

  // ---------------------------------------------------------------------
  // Full content of a record: `fullvalue += value["value"].strip('"')`
  // ---------------------------------------------------------------------

  /** Concatenation is associative (stated once, so proofs need not rediscover it). */
  lemma ConcatAssoc<T>(x: seq<T>, y: seq<T>, z: seq<T>)
    ensures x + y + z == x + (y + z)
  {
  }

  /** The in-order concatenation of the stripped value parts. */
  function FullContent(parts: seq<string>): string {
    if parts == [] then "" else FullContent(parts[..|parts| - 1]) + StripQuotes(parts[|parts| - 1])
  }

  /** Full content distributes over concatenation of the part lists. */
  lemma {:induction false} FullContentAppend(a: seq<string>, b: seq<string>)
    ensures FullContent(a + b) == FullContent(a) + FullContent(b)
    decreases |b|
  {
    if b == [] {
      assert a + b == a;
    } else {
      var init, last := b[..|b| - 1], b[|b| - 1];
      assert (a + b)[..|a + b| - 1] == a + init;
      assert (a + b)[|a + b| - 1] == last;
      FullContentAppend(a, init);
      ConcatAssoc(FullContent(a), FullContent(init), StripQuotes(last));
    }
  }

  /** A single part stored as `"c"` has full content `c`. */
  lemma FullContentOfQuoted(c: string)
    requires NoEdgeQuote(c)
    ensures FullContent([Quote(c)]) == c
  {
    assert [Quote(c)][..0] == [];
    StripQuotesOfQuote(c);
  }

  /** Two quoted parts make up their joined content: `"ab"` and `"cd"` give `abcd`. */
  lemma FullContentOfTwoParts(x: string, y: string)
    requires NoEdgeQuote(x) && NoEdgeQuote(y)
    ensures FullContent([Quote(x), Quote(y)]) == x + y
  {
    var parts := [Quote(x), Quote(y)];
    assert parts[..1] == [Quote(x)];
    FullContentOfQuoted(x);
    StripQuotesOfQuote(y);
  }

  // ---------------------------------------------------------------------
  // Relative name: `record_name.replace(zone_name, "")[:-1]`
  // ---------------------------------------------------------------------

  predicate OccursAt(s: string, pat: string, i: nat) {
    i + |pat| <= |s| && s[i..i + |pat|] == pat
  }

  /**
   * Python's `s.replace(pat, "")`: every non-overlapping occurrence of
   * `pat`, scanned from the left, is removed; an empty `pat` changes nothing.
   */
  function RemoveAll(s: string, pat: string): string
    decreases |s|
  {
    if pat == [] || |s| < |pat| then s
    else if s[..|pat|] == pat then RemoveAll(s[|pat|..], pat)
    else [s[0]] + RemoveAll(s[1..], pat)
  }

  /** Python's `s[:-1]`: the last character dropped, if there is one. */
  function DropLast(s: string): string {
    if s == [] then s else s[..|s| - 1]
  }

  /** The record name relative to its zone, as lines 139 and 172 derive it. */
  function RelativeName(recordName: string, zoneName: string): string {
    DropLast(RemoveAll(recordName, zoneName))
  }

  /** No occurrence before `k` in `s` means none before `k - 1` in `s` without its first character. */
  lemma NoOccurrenceInTail(s: string, pat: string, k: nat)
    requires 0 < k <= |s|
    requires forall i :: 0 <= i < k ==> !OccursAt(s, pat, i)
    ensures forall i :: 0 <= i < k - 1 ==> !OccursAt(s[1..], pat, i)
  {
    forall i | 0 <= i < k - 1
      ensures !OccursAt(s[1..], pat, i)
    {
      assert !OccursAt(s, pat, i + 1);
      if i + |pat| <= |s| - 1 {
        assert s[1..][i..i + |pat|] == s[i + 1..i + 1 + |pat|];
      }
    }
  }

  /** With no occurrence of `pat` starting before `k`, the first `k` characters survive. */
  lemma {:induction false} RemoveAllKeepsPrefix(s: string, pat: string, k: nat)
    requires pat != [] && k <= |s|
    requires forall i :: 0 <= i < k ==> !OccursAt(s, pat, i)
    ensures RemoveAll(s, pat) == s[..k] + RemoveAll(s[k..], pat)
    decreases k
  {
    if k == 0 {
      assert s[..0] == [] && s[0..] == s;
    } else if |s| < |pat| {
      assert s[..k] + s[k..] == s;
    } else {
      assert !OccursAt(s, pat, 0);
      assert s[..|pat|] != pat;
      var t := s[1..];
      NoOccurrenceInTail(s, pat, k);
      RemoveAllKeepsPrefix(t, pat, k - 1);
      assert t[k - 1..] == s[k..];
      assert [s[0]] + t[..k - 1] == s[..k];
      ConcatAssoc([s[0]], t[..k - 1], RemoveAll(s[k..], pat));
    }
  }

  lemma RemoveAllOfItself(pat: string)
    ensures RemoveAll(pat, pat) == []
  {
    if pat != [] {
      assert pat[..|pat|] == pat;
      assert pat[|pat|..] == [];
    }
  }

  /**
   * When the record name is `p + "." + zoneName` and the zone name occurs
   * in it only as that suffix, the relative name is `p`.
   */
  lemma RelativeNameOfChild(p: string, zoneName: string)
    requires zoneName != []
    requires forall i :: 0 <= i <= |p| ==> !OccursAt(p + "." + zoneName, zoneName, i)
    ensures RelativeName(p + "." + zoneName, zoneName) == p
  {
    var s := p + "." + zoneName;
    RemoveAllKeepsPrefix(s, zoneName, |p| + 1);
    assert s[..|p| + 1] == p + ".";
    assert s[|p| + 1..] == zoneName;
    RemoveAllOfItself(zoneName);
    assert p + "." + [] == p + ".";
    assert (p + ".")[..|p|] == p;
  }

  /** A record name equal to its zone name has the empty relative name. */
  lemma RelativeNameOfApex(zoneName: string)
    ensures RelativeName(zoneName, zoneName) == ""
  {
    RemoveAllOfItself(zoneName);
  }

  // ---------------------------------------------------------------------
  // Decimal ids: `"{0}".format(n)` for a non-negative integer
  // ---------------------------------------------------------------------

  predicate IsDigit(c: char) {
    '0' <= c <= '9'
  }

  predicate AllDigits(s: string) {
    forall i :: 0 <= i < |s| ==> IsDigit(s[i])
  }

  function DigitValue(c: char): (d: nat)
    requires IsDigit(c)
    ensures d < 10
  {
    c as int - '0' as int
  }

  function DigitChar(d: nat): (c: char)
    requires d < 10
    ensures IsDigit(c) && DigitValue(c) == d
  {
    ('0' as int + d) as char
  }

  /** The decimal numeral of `n`, without leading zeros. */
  function NatToString(n: nat): (s: string)
    ensures |s| >= 1 && AllDigits(s)
    decreases n
  {
    if n < 10 then [DigitChar(n)] else NatToString(n / 10) + [DigitChar(n % 10)]
  }

  /** The number a string of decimal digits denotes. */
  function ParseNat(s: string): nat
    requires AllDigits(s)
  {
    if s == [] then 0 else ParseNat(s[..|s| - 1]) * 10 + DigitValue(s[|s| - 1])
  }

  /** Reading back a rendered id gives the id: rendering is injective. */
  lemma {:induction false} ParseNatToString(n: nat)
    ensures ParseNat(NatToString(n)) == n
    decreases n
  {
    var s := NatToString(n);
    if n >= 10 {
      ParseNatToString(n / 10);
      assert s[..|s| - 1] == NatToString(n / 10);
    }
  }
}

=== FILE: wrappers.dfy ===
/** The Option, Result and Outcome types shared by the other modules. */
module Wrappers {

  /** A value that may be absent (Python's `None`). */
  datatype Option<+T> = None | Some(value: T)

  /** The value of a step that either returns or raises. */
  datatype Result<+T, +E> = Success(value: T) | Failure(error: E)

  /** A step with no value that either completes or raises. */
  datatype Outcome<+E> = Pass | Fail(error: E)
}
